=== FILE: README.md ===
# Advent of Code 2019 (early days) in Dafny

This project models the early Intcode interpreter of the repository and the small puzzle solvers written before it. Every operation is a pure function or a short method over immutable values. Each carries a contract for its success and its error cases, and the verifier proves these contracts; the few contracts stated weaker than the source are listed under "Left out".

- **Intcode computer** (`computer.dfy`, `intcode_base.dfy`). It covers:
  - decoding an instruction word (the command is `raw % 100`, and one mode digit sits at each of the places 100, 1000 and 10000);
  - resolving operands (Position or Immediate on reads, Position only on writes);
  - `step`, and the `run` loop.

  The machine is `Machine(mem, idx, input, output)`. Each step returns either the next machine or the error the source raises.
- **Shared wrappers** (`wrappers.dfy`): Rust's `Option` and `Result`.
- **Ports** (`ports.dfy`). The input side is a FIFO queue that fails once it is exhausted, plus a single-shot input. The output side is a collector vector, a shared collector, and a string accumulator that joins values with `", "`. Decimal rendering of integers is in `decimal.dfy`.
- **Day 1** (`rocket_fuel.dfy`): the fuel for a mass, and the recursive fuel for the fuel.
- **Day 2** (`gravity_assist.dfy`): the first interpreter. It has opcodes 1, 2 and 99 at every fourth cell. It is modelled as a functional reference `Exec`, and as a method `Run` that loops over a working copy of the vector, four cells at a time, proved equal to it.
- **Day 3** (`crossed_wires.dfy`): directions, unit moves, parsing one path segment, and `mark_spots`. The first wire records the first step count at which it reached each cell. The second wire keeps the lowest combined step count at a crossing.
- **Day 4** (`secure_container.dfy`): six-digit numbers, parsing with the optional fix to the next non-decreasing number, the successor among non-decreasing numbers, the double-digit tests and the stop test.
- **Day 6** (`orbit_map.dfy`): splitting an `A)B` line, building the orbit map, and the work-list sum of orbit depths. The sum is proved equal to the sum, over every object below a root, of its depth.

In three places the interpreter's code does less than the rest of the repository expects of it. The model follows the code:

- **`run` stops early.** Callers treat `run` as running a program to its end. The amplifier chain of day 7 (`day_07/src/main.rs:29-36`) runs each of five computers once and then expects exactly one value in the last output, which only a run past the Output instruction can produce. The test at `intcode/src/computer.rs:49-56` and `day_05/src/main.rs:11-12` print its result as the number of steps taken. The first interpreter's day 2 tests (`day_02/src/main.rs:49-55`) expect 3500 in cell 0 of `[1,9,10,3,...]` from the same program, which takes two instructions to get there. But `run` repeats `step` only while `step` reports Halt. So it returns after the first instruction that is not Halt, and cell 0 keeps its 1 (see `ComputerProperties.RunStopsAfterFirstInstruction` and the Findings below).
- **`run` returns nothing.** Those same callers bind `run`'s result as a step count, but in this snapshot `run` returns unit.
- **Smaller instruction set.** Only Add, Multiply, Input, Output and Halt exist, with Position and Immediate modes. Jumps, comparisons, relative mode and the relative base belong to later versions of the Intcode machine and are not modelled.

Two places in the computer's source do not agree with the rest of the crate:

- **Input read.** The Input instruction passes the result of `get_in` straight to `put`. The model treats a failed read as the step's error.
- **Error variants.** `error.rs` declares `InvalidInstruction`, `InvalidAddress`, `InvalidOutputMode` and `AddrOverflow`; `AddrOverflow` is never raised. `computer.rs` and `input.rs` raise variants that do not match these declarations:
  - `InvalidMode` and `InputErrStr` are not declared in `error.rs` at all;
  - `InvalidAddress` is raised with four fields (operand index, an optional operand word, mode and command), where `error.rs` declares three (`Cmd`, `Bit`, `usize`);
  - `InvalidOutputMode` is raised with two fields, where `error.rs` declares three (`Cmd`, `Bit`, `usize`).

  The model uses the variants exactly as they are raised.

`Computer.New` (`Computer::new`) is a plain constructor: the given memory and ports, with `idx` at 0.

## Model

| member | source | states |
|---|---|---|
| Ports.NewSingle | intcode/src/input.rs:34-38 | a new single-shot input yields its value on the first read and is marked used by that read |
| Ports.GetIn | intcode/src/input.rs:14-32 | a queue read succeeds iff the queue is non-empty, returns the head and leaves exactly the tail; an empty queue fails with "Ran out of elements in the input vector"; a single-shot read succeeds iff it was not used, returns its value and marks it used, and otherwise fails with an empty message |
| Ports.QueueYieldsInOrder | intcode/src/input.rs:14-19 | reading a queue as many times as it has elements yields them front to back and leaves it empty |
| Ports.QueueOverflowFails | intcode/src/input.rs:14-19 | one read more than the queue holds fails with the exhaustion error |
| Ports.QueueTestVector | intcode/src/input.rs:67-83 | the queue 1, 2, 3 yields 1, 2, 3 and a fourth read fails |
| Ports.SingleYieldsOnce | intcode/src/input.rs:21-38 | a single-shot input yields its value once; any later read fails |
| Ports.PutOut | intcode/src/output.rs:41-50 | the variant of the port is kept; a vector or shared vector gains the value at its end; a string keeps its old text as a prefix, takes the bare decimal text when it was empty, and otherwise gains ", " followed by the decimal text |
| Ports.CollectAppends | intcode/src/output.rs:14-27 | putting a sequence into a vector or shared vector leaves it holding the old contents followed by the sequence, in order |
| Ports.TextJoins | intcode/src/output.rs:41-50 | putting a sequence into an empty string leaves the values in decimal joined by ", " |
| Ports.TextJoinsFrom | intcode/src/output.rs:41-50 | putting more values into a joined string gives the join of the whole sequence |
| Ports.TextTestVector | intcode/src/output.rs:84-94 | putting 1, 2, 10, 3 yields "1, 2, 10, 3" |
| Ports.CollectTestVector | intcode/src/output.rs:71-82 | putting 1, 2, 3 into a vector leaves 1, 2, 3 at indices 0, 1, 2 |
| Computer.ModeAt | intcode/src/computer.rs:77-83 | the mode is Ok iff the digit at place value n is 0 or 1, Position iff it is 0, and otherwise the error names the word, the operand number and n |
| Computer.ModePlaceValue | intcode/src/computer.rs:85-95 | for the first, second and third operand the mode is chosen by the single decimal digit at 100, 1000 and 10000, whatever the digits around it |
| Computer.ModeTestVectors | intcode/src/computer.rs:260-291 | the mode tables of the unit tests, including 1002 giving Position, Immediate, Position |
| Computer.Decode | intcode/src/computer.rs:183-202 | a word decodes iff it fits a u16 and its last two digits are 1, 2, 3, 4 or 99, each naming one command; a word outside u16 fails with itself, any other opcode fails with the last two digits |
| Computer.Get | intcode/src/computer.rs:97-118 | a read moves idx by one; a missing operand cell fails; Immediate yields the operand word; Position succeeds iff the operand is an address in memory and yields that cell, else fails naming the operand; so a read succeeds exactly when the operand is `Fetchable`, yields its `Operand` value, and otherwise fails with its `FetchError` |
| Computer.Put | intcode/src/computer.rs:120-144 | a write fails on a missing operand cell, fails with InvalidOutputMode unless the mode is Position, and succeeds iff the address is in memory; on success only that cell changes, the length is kept, idx moves by one and the ports are untouched; a write succeeds exactly when the operand is `Storable` and otherwise fails with its `StoreError` |
| Computer.Vals | intcode/src/computer.rs:217-222 | the first failure wins, in the order mode 1 (InvalidMode), reading operand 1 (InvalidAddress), mode 2, reading operand 2; it succeeds exactly when both modes are valid and both operands readable, and then yields the two operand values and moves idx by exactly two |
| IntcodeBase.Cmd.IsStop | intcode/src/computer.rs:172-174 | a command stops the machine exactly when it is Halt |
| Computer.Exec | intcode/src/computer.rs:224-253 | the flag is the command's `is_stop`, so it is true exactly for Halt; Add and Multiply move idx by 3 and Input, Output and Halt by 1 after the opcode; memory length is kept; only Input touches the input and only Output the output; Output and Halt leave memory alone; Halt always succeeds; Add and Multiply return the operand-fetch or mode error of `vals`, then a bad third mode, then the write error, and succeed exactly when the write target is storable; Input returns the read error, then a bad mode, then the write error; Output returns a bad mode or the read error of its operand; a successful Input stores the value read at the address its operand names and keeps the port after the read, and a successful Output hands its operand's value to the output port |
| Computer.Step | intcode/src/computer.rs:27-32 | a decode error is the step's error; on success the flag is true iff the word is a Halt word, idx moves by 4 for Add and Multiply and by 2 otherwise, and memory length is kept; a Halt word always succeeds and moves idx by 2 |
| Computer.Run | intcode/src/computer.rs:34-37 | the loop keeps memory length and always moves idx forward |
| Computer.RunToHalt | intcode/src/computer.rs:34-37 | the corrected loop, on success, ends just after a Halt word it executed, with memory length kept |
| ComputerProperties.ArithmeticStep | intcode/src/computer.rs:227-235 | Add and Multiply with either input mode store the sum or product of the operand values at the third operand's address, change nothing else, and move idx by 4 |
| ComputerProperties.ArithmeticWord | intcode/src/computer.rs:85-95 | a word p2 p1 0 op with op 1 or 2 decodes to Add or Multiply, with input modes chosen by p1 and p2 and a positional third operand |
| ComputerProperties.OperandsFetched | intcode/src/computer.rs:217-222 | with the modes of the two inputs known and their addresses in memory, the two inputs are the operand values and idx moves by two |
| ComputerProperties.ArithmeticExec | intcode/src/computer.rs:227-235 | after the opcode, Add and Multiply store the sum or product of the operand values at the third operand's address and move idx by 3 |
| ComputerProperties.ImmediateWriteFails | intcode/src/computer.rs:130-132 | Add or Multiply with an immediate third operand fails with InvalidOutputMode at that operand's index |
| ComputerProperties.ImmediateTargetWord | intcode/src/computer.rs:85-95 | a word 1 p2 p1 0 op decodes to Add or Multiply with an immediate third operand |
| ComputerProperties.InputStep | intcode/src/computer.rs:237-240 | Input from a queue stores the head at the operand's address and removes it, moving idx by 2; an empty queue makes the step fail with the exhaustion error |
| ComputerProperties.InputImmediateFails | intcode/src/computer.rs:237-240 | Input into an immediate operand fails with InvalidOutputMode once the read succeeded |
| ComputerProperties.OutputStep | intcode/src/computer.rs:242-245 | Output hands the operand's value to the output port, keeps memory, and moves idx by 2 |
| ComputerProperties.PositionOperandOutOfRange | intcode/src/computer.rs:107-116 | Add, Multiply or Output whose positional first operand is not an address in memory makes the step fail with InvalidAddress at that operand, carrying the operand word |
| ComputerProperties.OperandCellMissing | intcode/src/computer.rs:101-105 | Add, Multiply or Output as the last word of memory makes the step fail with InvalidAddress at the missing operand cell, with no word |
| ComputerProperties.BadModeDigitFails | intcode/src/computer.rs:77-87 | a first mode digit from 2 to 9 makes the step of any command but Halt fail with InvalidMode naming the word, operand 1 and place value 100 (for Input, once the read succeeded) |
| ComputerProperties.BadSecondModeDigitFails | intcode/src/computer.rs:217-222 | Add or Multiply whose first operand reads fine but whose second mode digit is from 2 to 9 fails with InvalidMode for operand 2 and place value 1000 |
| ComputerProperties.SkipHalts | intcode/src/computer.rs:247-252 | from a machine the loop can run, passing the leading Halt words two cells at a time reaches a word that is not Halt, with every word passed on the way a Halt word |
| ComputerProperties.RunIsOneStepAfterHalts | intcode/src/computer.rs:34-37 | run equals: pass the leading Halt words, then execute exactly one instruction that is not Halt and return its error or the machine after it |
| ComputerProperties.RunIsStep | intcode/src/computer.rs:34-37 | on a word that is not Halt, run is defined and returns the machine after that one step |
| ComputerProperties.RunExample | intcode/src/computer.rs:40-57 | the test program 1002,4,3,4,33 stores 99 over 33 and run returns with idx 4 |
| ComputerProperties.RunNegativeImmediate | intcode/src/computer.rs:227-229 | 1101,100,-1,4,0 stores 99 at address 4 |
| ComputerProperties.RunStopsAfterFirstInstruction | intcode/src/computer.rs:34-37 | on 1,9,10,3,2,3,11,0,99,30,40,50 run performs only the first Add (70 at address 3) and returns with idx 4 |
| ComputerProperties.RunPassesHalt | intcode/src/computer.rs:247-252 | a leading 99 is passed two cells at a time, then the Add after it runs and run returns |
| ComputerProperties.HaltAtEndPanics | intcode/src/computer.rs:27-29 | a Halt in the last cell, or one followed by a single cell, sends idx past the end, where the next step cannot index memory |
| ComputerProperties.RunInputThenStop | intcode/src/computer.rs:237-240 | Input then Output: the queued 42 is stored and run returns before the Output; with an empty queue run fails with the exhaustion error |
| ComputerProperties.RunToHaltContinues | intcode/src/computer.rs:34-37 | under the corrected loop, from a machine that reaches a Halt, a step that does not halt hands over to the next machine, which still reaches one |
| ComputerProperties.RunToHaltExampleTail | intcode/src/computer.rs:34-37 | from idx 4 of the worked example the corrected loop runs the Multiply (3500 at address 0) and then the Halt |
| ComputerProperties.RunToHaltExample | intcode/src/computer.rs:34-37 | the corrected loop takes 1,9,10,3,2,3,11,0,99,30,40,50 to 3500 in cell 0 and stops after its Halt |
| ComputerProperties.RunToHaltNegativeImmediate | intcode/src/computer.rs:34-37 | the corrected loop stores 99 at address 4 with 1101,100,-1,4,0 and then halts on it |
| RocketFuel.Fuel | day_01/src/main.rs:6-8 | fuel exists iff the mass is at least 6, and is the largest f with 3(f+2) at most the mass, hence below the mass |
| RocketFuel.CalcFuel | day_01/src/main.rs:10-15 | the result is at least the mass, equals it when there is no fuel or zero fuel, and is at most one and a half times the mass |
| RocketFuel.TotalFuel | day_01/src/main.rs:17-22 | zero when a third of the mass is below 2, otherwise at least that third minus 2, and never more than half the mass |
| RocketFuel.CalcFuelIsMassPlusRounds | day_01/src/main.rs:10-15 | calc_fuel is the mass plus the positive fuel amounts of every later round |
| RocketFuel.TotalFuelIsSumOfRounds | day_01/src/main.rs:17-22 | total_fuel is the sum of the positive fuel amounts of every round |
| RocketFuel.TotalFuelExamples | day_01/src/main.rs:44-57 | masses 14, 1969 and 100756 need 2, 966 and 50346 |
| GravityAssist.StepAt | day_02/src/main.rs:3-16 | opcode 99 leaves the vector as it is; an opcode other than 1, 2 or 99 panics; an opcode 1 or 2 succeeds exactly when all four cells and the three addresses are in range, and then only the target cell changes, to the sum or the product |
| GravityAssist.ExecUnfold | day_02/src/main.rs:3-16 | a run that does not panic, at an opcode other than 99, has opcode 1 or 2 and all its addresses in range, writes the sum or product, and continues four cells later |
| GravityAssist.Run | day_02/src/main.rs:1-18 | the array loop stepping by four ends with exactly the vector the functional reference computes, of the same length |
| GravityAssist.RunExample | day_02/src/main.rs:49-55 | the worked example ends with 3500 in cell 0 and 70 in cell 3 |
| GravityAssist.RunExtras | day_02/src/main.rs:57-66 | the four further tests, including a program that rewrites its own next opcode |
| GravityAssist.BadOpcodePanics | day_02/src/main.rs:12-16 | an unknown opcode, met first or after an earlier write, panics |
| CrossedWires.FromChar | day_03/src/main.rs:13-22 | each of r, d, l, u in either case selects its direction, and only those |
| CrossedWires.Move | day_03/src/main.rs:36-51 | a unit move changes exactly one coordinate by one, in the direction's sense |
| CrossedWires.Reset | day_03/src/main.rs:57-60 | the position becomes the origin |
| CrossedWires.OffsetInjective | day_03/src/main.rs:36-51 | different distances along one direction are different cells |
| CrossedWires.MoveOffset | day_03/src/main.rs:83-89 | a unit move after k cells in a direction lands k + 1 cells along it |
| CrossedWires.InstFromStr | day_03/src/main.rs:64-72 | the first character gives the direction and the rest the step count |
| CrossedWires.InstRoundTrip | day_03/src/main.rs:64-72 | a segment written as a letter and a decimal count parses back to itself |
| CrossedWires.Lower | day_03/src/main.rs:94-100 | the new lowest exists, is at most the candidate and at most the old lowest, and is one of the two |
| CrossedWires.RecordStep | day_03/src/main.rs:92-93 | one more move on the first wire keeps the record complete: the new cell is added with its step count unless already present, and nothing recorded before changes |
| CrossedWires.MarkFirst | day_03/src/main.rs:83-93 | the first wire makes exactly `steps` unit moves, adds every cell passed, keeps the earlier count for cells already seen and records steps-so-far for new ones |
| CrossedWires.MarkSecond | day_03/src/main.rs:83-100 | the second wire makes exactly `steps` unit moves, leaves the map alone, never raises lowest, ends at or below every crossing offered, and any change comes from a crossing |
| CrossedWires.MarkSpots | day_03/src/main.rs:74-102 | exactly `steps` unit moves; the first wire adds every cell passed, keeps the earlier count for cells already seen and records steps-so-far for new ones; the second wire leaves the map alone, never raises lowest, ends at or below every crossing offered, and any change comes from a crossing |
| SecureContainer.LessIsNumericOrder | day_04/src/main.rs:3-11 | the derived order on digits is the order of the numbers they spell |
| SecureContainer.FirstDescent | day_04/src/main.rs:37-59 | the index of the first digit below its predecessor, with all digits before it non-decreasing |
| SecureContainer.Parse | day_04/src/main.rs:28-35 | the six digits are the six characters' values |
| SecureContainer.FromNum | day_04/src/main.rs:23-69 | without fix the digits are the text's; with fix the result is non-decreasing, keeps the digits before the first descent and repeats the digit before it from there on |
| SecureContainer.FixIsLeastAbove | day_04/src/main.rs:37-59 | the fixed number is at or above the text's number, and no non-decreasing number lies between them |
| SecureContainer.Up | day_04/src/main.rs:71-102 | up is strictly greater and keeps non-decreasing numbers non-decreasing; 999999 has no successor |
| SecureContainer.UpIsNextNonDecreasing | day_04/src/main.rs:71-98 | from a non-decreasing number, up skips no non-decreasing number |
| SecureContainer.HasDouble | day_04/src/main.rs:104-110 | true iff two adjacent digits are equal |
| SecureContainer.HasOnlyDouble | day_04/src/main.rs:112-118 | true iff some maximal block of equal digits has length exactly two, which implies has_double |
| SecureContainer.Done | day_04/src/main.rs:120-127 | true iff every digit is at least the matching digit of the bound |
| SecureContainer.DoneVersusOrder | day_04/src/main.rs:120-127 | done implies the bound is reached in the derived order, but not conversely (222222 against 219999) |
| SecureContainer.DoubleExamples | day_04/src/main.rs:104-118 | 112233 and 111122 have a block of exactly two; 123444 has a double but no such block; 123789 has none |
| OrbitMap.GetPairs | day_06/src/main.rs:7-14 | succeeds iff the line holds a `)`; the left part then holds none and the line is left, `)`, right; otherwise the error quotes the line |
| OrbitMap.GetPairsUnique | day_06/src/main.rs:7-14 | any split whose left part has no `)` is the one get_pairs returns |
| OrbitMap.GetPairsExamples | day_06/src/main.rs:81-99 | the split tests, including A)B) and A))B, and ABC failing |
| OrbitMap.AddOrbit | day_06/src/main.rs:29-35 | one line adds its left name as a key, its right name to that key's orbiters (once) and to the set of orbiting names, and leaves other keys alone |
| OrbitMap.BuildFrom | day_06/src/main.rs:28-36 | building succeeds iff every line holds a `)`, and yields a consistent map; otherwise the error is `get_pairs`' message quoting the first line without `)` |
| OrbitMap.BuildAppend | day_06/src/main.rs:28-36 | a further line adds its pair after all earlier ones |
| OrbitMap.AddOrbitIdempotent | day_06/src/main.rs:30-35 | adding the same pair twice equals adding it once |
| OrbitMap.BuildFromRepeat | day_06/src/main.rs:28-36 | a line whose pair is already in the map changes nothing |
| OrbitMap.DuplicateLineIgnored | day_06/src/main.rs:30-33 | repeating the last line builds the same map, so duplicate lines are counted once |
| OrbitMap.RootsOf | day_06/src/main.rs:38-44 | the roots are exactly the keys that orbit nothing |
| OrbitMap.WeightIsDepthSum | day_06/src/main.rs:48-60 | what one work-list entry adds equals the sum of the depths of every object below it |
| OrbitMap.PopStep | day_06/src/main.rs:48-60 | one pop-and-push turn keeps the sum plus what is pending fixed and strictly shrinks the remaining work |
| OrbitMap.RootsPending | day_06/src/main.rs:38-44 | the roots pushed at depth 0 owe exactly the total of depths below them |
| OrbitMap.SumOrbits | day_06/src/main.rs:47-62 | for a map whose roots reach no cycle, the work-list loop terminates with the sum, over every root, of the depths of all objects below it |
| OrbitMap.Calc | day_06/src/main.rs:21-63 | calc succeeds iff every line holds a `)`, fails with `get_pairs`' message quoting the first line without `)`, and, when the roots of the built map reach no cycle, returns its total depth |
| OrbitMap.NoRootNoSum | day_06/src/main.rs:38-62 | when every object with orbiters orbits something itself, there are no roots, the empty rank is enough, and the sum is 0 |
| OrbitMap.RootlessCycle | day_06/src/main.rs:21-44 | the lines A)B and B)A build a map in which both objects orbit something, so `calc` may be called on it and answers 0 |
| OrbitMap.SampleTotal | day_06/src/main.rs:101-119 | the example map from COM)B to K)L has 42 direct and indirect orbits |

## Left out

- Each source file's `main`, file and CSV reading, and printing. This includes the day 4 counting loop that calls `done`, `has_only_double` and `up`.
- The day 5, 7 and 9 drivers, and the amplifier network. Those use threads, channels and a broadcast bus.
- Ports.Shared: the shared output (`Rc<RefCell<Vec<Bit>>>`) is a plain value inside the machine. Its aliasing is not modelled: no other holder of the vector sees the writes, and they can be read only from the machine's own output port.
- The blocking or side-effecting ports: `Interactive`, `Receiver` and `BusReader` inputs; `io::Write`, `fmt::Write`, `PrintOutput` and `Sender` outputs. These need a terminal, threads or an external stream.
- `bit_from_bool` in lib.rs, and the `Display` texts of `Mode`, `Cmd` and `CompError`. They are only used for printing.
- The machine state after a failed step. The source mutates the computer before it fails, but the error is fatal, so only the error value is modelled.
- Computer.Exec: sums and products are unbounded integers, not `i32`. An overflow that would panic or wrap in the source is not modelled.
- GravityAssist.StepAt: `usize` overflow of a sum or product is not modelled.
- RocketFuel.CalcFuel: masses are naturals, not `u64`.
- CrossedWires.MarkSpots: the `isize` and `usize` counters are unbounded.
- CrossedWires.MarkFirst: the step counter is unbounded, as in `MarkSpots`.
- CrossedWires.MarkSecond: the step counter and the sums it offers are unbounded, as in `MarkSpots`.
- Set and map iteration order. The orbiters of one object (a `HashSet`) are a list without repeats in order of first mention, and the roots come in key order. The sum does not depend on either order.
- OrbitMap.SumOrbits: `sum` and `depth` are unbounded, not `usize`. The sum counts every path below a root, so a map shaped as a chain of diamonds could in principle push it past 2^64, where the source would overflow.
- OrbitMap.SumOrbits: terminates only when no cycle is reachable from an object that orbits nothing. The caller gives a rank over the objects reached from the roots to witness that. A cycle reachable from a root makes the source loop forever. A cycle that no root reaches is allowed, and the empty rank suffices when there is no root at all (`OrbitMap.NoRootNoSum`, `OrbitMap.RootlessCycle`).
- OrbitMap.Calc: has the same requirement as `SumOrbits`, on the map `Build` returns.
- OrbitMap.SampleTotal: states 42 for the graph the eleven example lines describe. That `BuildFrom` on those lines yields this graph is not proved.
- SecureContainer.FromNum: the text is required to be six decimal characters. The source's other ways to panic (a length counted in bytes, `to_digit`) are left as that precondition.
- CrossedWires.InstFromStr: the text is required to be a direction letter followed by an optionally `+`-signed decimal count. Other input panics in the source.

## Findings

| source | as written | input that shows it | evidently intended | confidence | as-written member | corrected member |
|---|---|---|---|---|---|---|
| intcode/src/computer.rs:35 | `run` repeats `step` while it reports Halt, so it returns after the first instruction that is not Halt | 1,9,10,3,2,3,11,0,99,30,40,50 returns with cell 0 still 1 and idx 4 | repeat `step` until it reports Halt, as the amplifier chain of `day_07/src/main.rs:29-36` needs in order to collect its single output; on this program that gives 3500 in cell 0, as in the day 2 test | medium, not executed | ComputerProperties.RunStopsAfterFirstInstruction | Computer.RunToHalt |

=== FILE: computer.dfy ===
/** The Intcode computer of intcode/src/computer.rs: decoding an instruction
    word, resolving operands, one step, and the run loop. Memory is a
    sequence of integers and the machine is a value; every operation returns
    the next machine or the error the source raises. */
module Computer {
  import opened Wrappers
  import opened IntcodeBase
  import opened Ports

  /** Rust's `u16`, the width an instruction word is converted to. */
  type U16 = x: int | 0 <= x < 0x1_0000

  /** A decoded instruction word: the command and the raw word (for its modes). */
  datatype Instruction = Instruction(cmd: Cmd, raw: U16)

  /** `Computer`: memory, instruction pointer, and the two ports it owns. */
  datatype Machine = Machine(mem: seq<int>, idx: nat, input: InPort, output: OutPort)

  /** `Computer::new`: the instruction pointer starts at 0. */
  function New(mem: seq<int>, input: InPort, output: OutPort): Machine {
    Machine(mem, 0, input, output)
  }

  /** `Mode::g`: the decimal digit of `b` at place value `n` selects the mode;
      `pos` names the operand for the error. */
  function ModeAt(b: U16, n: nat, pos: nat): (r: Result<Mode>)
    requires n > 0
    ensures r.Ok? <==> (b / n) % 10 <= 1
    ensures r == Ok(Position) <==> (b / n) % 10 == 0
    ensures r.Err? ==> r.error == InvalidMode(b, pos, n)
  {
    match (b / n) % 10
    case 1 => Ok(Immediate)
    case 0 => Ok(Position)
    case _ => Err(InvalidMode(b, pos, n))
  }

  function M1(b: U16): Result<Mode> {
    ModeAt(b, 100, 1)
  }

  function M2(b: U16): Result<Mode> {
    ModeAt(b, 1_000, 2)
  }

  function M3(b: U16): Result<Mode> {
    ModeAt(b, 10_000, 3)
  }

  /** The mode a digit selects, independently of how the digit is extracted. */
  function ModeOfDigit(d: nat, b: U16, pos: nat, n: nat): Result<Mode> {
    if d == 0 then Ok(Position) else if d == 1 then Ok(Immediate) else Err(InvalidMode(b, pos, n))
  }

  /** Place-value reading of the three mode accessors: with the word written
      as `hi * 10n + d * n + lo` for `n` = 100, 1000, 10000 and `lo < n`, the
      mode is chosen by the single digit `d`. */
  lemma ModePlaceValue(b: U16, hi: nat, d: nat, lo: nat)
    requires d <= 9
    ensures lo < 100 && b == hi * 1_000 + d * 100 + lo ==> M1(b) == ModeOfDigit(d, b, 1, 100)
    ensures lo < 1_000 && b == hi * 10_000 + d * 1_000 + lo ==> M2(b) == ModeOfDigit(d, b, 2, 1_000)
    ensures lo < 10_000 && b == hi * 100_000 + d * 10_000 + lo ==> M3(b) == ModeOfDigit(d, b, 3, 10_000)
  {
    if lo < 100 && b == hi * 1_000 + d * 100 + lo {
      assert b / 100 == hi * 10 + d;
      assert (hi * 10 + d) % 10 == d;
    }
    if lo < 1_000 && b == hi * 10_000 + d * 1_000 + lo {
      assert b / 1_000 == hi * 10 + d;
      assert (hi * 10 + d) % 10 == d;
    }
    if lo < 10_000 && b == hi * 100_000 + d * 10_000 + lo {
      assert b / 10_000 == hi * 10 + d;
      assert (hi * 10 + d) % 10 == d;
    }
  }

  /** The mode unit tests of computer.rs, including 1002 (Position,
      Immediate, Position). */
  lemma ModeTestVectors()
    ensures forall b :: b in [100, 101, 110, 1100, 1110, 1111, 11111] ==> M1(b) == Ok(Immediate)
    ensures forall b :: b in [0, 1, 10, 1000, 1010, 1011, 11011, 1002] ==> M1(b) == Ok(Position)
    ensures forall b :: b in [1000, 1010, 1100, 1110, 1111, 11111, 1002] ==> M2(b) == Ok(Immediate)
    ensures forall b :: b in [0, 1, 10, 10000, 10100, 10110, 10111] ==> M2(b) == Ok(Position)
    ensures forall b :: b in [10000, 10100, 11000, 11100, 11110, 11111] ==> M3(b) == Ok(Immediate)
    ensures forall b :: b in [0, 1, 10, 100, 110, 1111, 1002] ==> M3(b) == Ok(Position)
  {
  }

  /** `Instruction::try_from`: the word must fit a `u16`, and its last two
      decimal digits select the command. */
  function Decode(b: int): (r: Result<Instruction>)
    ensures r.Ok? <==> 0 <= b < 0x1_0000 && b % 100 in {1, 2, 3, 4, 99}
    ensures r.Ok? ==> r.value.raw == b
    ensures r.Ok? ==> (r.value.cmd == Add <==> b % 100 == 1)
    ensures r.Ok? ==> (r.value.cmd == Multiply <==> b % 100 == 2)
    ensures r.Ok? ==> (r.value.cmd == Input <==> b % 100 == 3)
    ensures r.Ok? ==> (r.value.cmd == Output <==> b % 100 == 4)
    ensures r.Ok? ==> (r.value.cmd == Halt <==> b % 100 == 99)
    ensures !(0 <= b < 0x1_0000) ==> r == Err(InvalidInstruction(b))
    ensures 0 <= b < 0x1_0000 && r.Err? ==> r == Err(InvalidInstruction(b % 100))
  {
    if !(0 <= b < 0x1_0000) then Err(InvalidInstruction(b))
    else
      var raw: U16 := b;
      match raw % 100
      case 1 => Ok(Instruction(Add, raw))
      case 2 => Ok(Instruction(Multiply, raw))
      case 3 => Ok(Instruction(Input, raw))
      case 4 => Ok(Instruction(Output, raw))
      case 99 => Ok(Instruction(Halt, raw))
      case n => Err(InvalidInstruction(n))
  }

  /** The operand word at `i` can be read under mode `m`: the cell exists
      and, in Position mode, names a cell of memory. */
  predicate Fetchable(mem: seq<int>, i: nat, m: Mode) {
    i < |mem| && (m == Position ==> 0 <= mem[i] < |mem|)
  }

  /** The value a readable operand stands for: the word itself when
      Immediate, the cell it names when Position. */
  function Operand(mem: seq<int>, i: nat, m: Mode): int
    requires Fetchable(mem, i, m)
  {
    if m == Immediate then mem[i] else mem[mem[i]]
  }

  /** The error a read of an unreadable operand raises: the operand index,
      and the operand word when the cell exists. */
  function FetchError(mem: seq<int>, i: nat, m: Mode, cmd: Cmd): CompError {
    if i < |mem| then InvalidAddress(i, Some(mem[i]), m, cmd) else InvalidAddress(i, None, m, cmd)
  }

  /** The operand at `i` can be written through: Position mode, and the
      word names a cell of memory. */
  predicate Storable(mem: seq<int>, i: nat, m: Mode) {
    m == Position && Fetchable(mem, i, m)
  }

  /** The error a write raises: a missing cell first, then a mode other
      than Position, then an address outside memory. */
  function StoreError(mem: seq<int>, i: nat, m: Mode, cmd: Cmd): CompError {
    if i >= |mem| then InvalidAddress(i, None, m, cmd)
    else if m != Position then InvalidOutputMode(i, cmd)
    else InvalidAddress(i, Some(mem[i]), m, cmd)
  }

  /** `Mode::get`: fetch the operand word at `idx` (advancing `idx` by one)
      and resolve it as a value. */
  function Get(mode: Mode, c: Machine, cmd: Cmd): (r: Result<(int, Machine)>)
    ensures r.Ok? ==> r.value.1 == c.(idx := c.idx + 1)
    ensures c.idx >= |c.mem| ==> r == Err(InvalidAddress(c.idx, None, mode, cmd))
    ensures c.idx < |c.mem| && mode == Immediate ==> r.Ok? && r.value.0 == c.mem[c.idx]
    ensures c.idx < |c.mem| && mode == Position ==>
      (r.Ok? <==> 0 <= c.mem[c.idx] < |c.mem|)
    ensures c.idx < |c.mem| && mode == Position && r.Ok? ==> r.value.0 == c.mem[c.mem[c.idx]]
    ensures c.idx < |c.mem| && mode == Position && r.Err? ==>
      r.error == InvalidAddress(c.idx, Some(c.mem[c.idx]), mode, cmd)
    ensures r.Ok? <==> Fetchable(c.mem, c.idx, mode)
    ensures r.Ok? ==> r.value.0 == Operand(c.mem, c.idx, mode)
    ensures r.Err? ==> r.error == FetchError(c.mem, c.idx, mode, cmd)
  {
    var idx := c.idx;
    var c' := c.(idx := idx + 1);
    if idx >= |c.mem| then Err(InvalidAddress(idx, None, mode, cmd))
    else
      var addr := c.mem[idx];
      match mode
      case Immediate => Ok((addr, c'))
      case Position =>
        if 0 <= addr < |c.mem| then Ok((c.mem[addr], c'))
        else Err(InvalidAddress(idx, Some(addr), mode, cmd))
  }

  /** `Mode::put`: fetch the operand word at `idx` (advancing `idx` by one)
      and store `val` at the address it names. */
  function Put(mode: Mode, c: Machine, val: int, cmd: Cmd): (r: Result<Machine>)
    ensures c.idx >= |c.mem| ==> r == Err(InvalidAddress(c.idx, None, mode, cmd))
    ensures c.idx < |c.mem| && mode != Position ==> r == Err(InvalidOutputMode(c.idx, cmd))
    ensures c.idx < |c.mem| && mode == Position ==> (r.Ok? <==> 0 <= c.mem[c.idx] < |c.mem|)
    ensures c.idx < |c.mem| && mode == Position && r.Err? ==>
      r.error == InvalidAddress(c.idx, Some(c.mem[c.idx]), mode, cmd)
    ensures r.Ok? ==> r.value.idx == c.idx + 1 && r.value.input == c.input && r.value.output == c.output
    ensures r.Ok? ==> |r.value.mem| == |c.mem| && r.value.mem[c.mem[c.idx]] == val
    ensures r.Ok? ==> forall i :: 0 <= i < |c.mem| && i != c.mem[c.idx] ==> r.value.mem[i] == c.mem[i]
    ensures r.Ok? <==> Storable(c.mem, c.idx, mode)
    ensures r.Err? ==> r.error == StoreError(c.mem, c.idx, mode, cmd)
  {
    var idx := c.idx;
    if idx >= |c.mem| then Err(InvalidAddress(idx, None, mode, cmd))
    else if mode != Position then Err(InvalidOutputMode(idx, cmd))
    else
      var a := c.mem[idx];
      if 0 <= a < |c.mem| then Ok(c.(mem := c.mem[a := val], idx := idx + 1))
      else Err(InvalidAddress(idx, Some(a), mode, cmd))
  }

  /** `Instruction::vals`: operand 1, then operand 2, each under its own
      mode. The first failure wins: mode 1, reading operand 1, mode 2,
      reading operand 2. */
  function Vals(ins: Instruction, c: Machine): (r: Result<(int, int, Machine)>)
    ensures M1(ins.raw).Err? ==> r == Err(M1(ins.raw).error)
    ensures M1(ins.raw).Ok? && !Fetchable(c.mem, c.idx, M1(ins.raw).value) ==>
      r == Err(FetchError(c.mem, c.idx, M1(ins.raw).value, ins.cmd))
    ensures M1(ins.raw).Ok? && Fetchable(c.mem, c.idx, M1(ins.raw).value) && M2(ins.raw).Err? ==>
      r == Err(M2(ins.raw).error)
    ensures (M1(ins.raw).Ok? && Fetchable(c.mem, c.idx, M1(ins.raw).value) && M2(ins.raw).Ok? &&
             !Fetchable(c.mem, c.idx + 1, M2(ins.raw).value)) ==>
      r == Err(FetchError(c.mem, c.idx + 1, M2(ins.raw).value, ins.cmd))
    ensures r.Ok? <==> (M1(ins.raw).Ok? && M2(ins.raw).Ok? &&
                        Fetchable(c.mem, c.idx, M1(ins.raw).value) && Fetchable(c.mem, c.idx + 1, M2(ins.raw).value))
    ensures r.Ok? ==> r.value.0 == Operand(c.mem, c.idx, M1(ins.raw).value)
    ensures r.Ok? ==> r.value.1 == Operand(c.mem, c.idx + 1, M2(ins.raw).value)
    ensures r.Ok? ==> r.value.2 == c.(idx := c.idx + 2)
  {
    var m1 :- M1(ins.raw);
    var g1 :- Get(m1, c, ins.cmd);
    var m2 :- M2(ins.raw);
    var g2 :- Get(m2, g1.1, ins.cmd);
    Ok((g1.0, g2.0, g2.1))
  }

  /** `Instruction::step`, applied after the opcode word has been passed.
      The flag is true exactly for Halt, which moves `idx` one more cell. */
  function Exec(ins: Instruction, c: Machine): (r: Result<(bool, Machine)>)
    ensures r.Ok? ==> (r.value.0 <==> ins.cmd.IsStop())
    ensures r.Ok? ==> |r.value.1.mem| == |c.mem|
    ensures r.Ok? && ins.cmd in {Add, Multiply} ==> r.value.1.idx == c.idx + 3
    ensures r.Ok? && ins.cmd in {Input, Output, Halt} ==> r.value.1.idx == c.idx + 1
    ensures r.Ok? && ins.cmd != Input ==> r.value.1.input == c.input
    ensures r.Ok? && ins.cmd != Output ==> r.value.1.output == c.output
    ensures r.Ok? && ins.cmd in {Output, Halt} ==> r.value.1.mem == c.mem
    ensures ins.cmd == Halt ==> r == Ok((true, c.(idx := c.idx + 1)))
    ensures ins.cmd in {Add, Multiply} && Vals(ins, c).Err? ==> r == Err(Vals(ins, c).error)
    ensures ins.cmd in {Add, Multiply} && Vals(ins, c).Ok? && M3(ins.raw).Err? ==> r == Err(M3(ins.raw).error)
    ensures ins.cmd in {Add, Multiply} && Vals(ins, c).Ok? && M3(ins.raw).Ok? ==>
      (r.Ok? <==> Storable(c.mem, c.idx + 2, M3(ins.raw).value)) &&
      (r.Err? ==> r.error == StoreError(c.mem, c.idx + 2, M3(ins.raw).value, ins.cmd))
    ensures ins.cmd == Input && GetIn(c.input).Err? ==> r == Err(GetIn(c.input).error)
    ensures ins.cmd == Input && GetIn(c.input).Ok? && M1(ins.raw).Err? ==> r == Err(M1(ins.raw).error)
    ensures ins.cmd == Input && GetIn(c.input).Ok? && M1(ins.raw).Ok? ==>
      (r.Ok? <==> Storable(c.mem, c.idx, M1(ins.raw).value)) &&
      (r.Err? ==> r.error == StoreError(c.mem, c.idx, M1(ins.raw).value, ins.cmd))
    ensures ins.cmd == Output && M1(ins.raw).Err? ==> r == Err(M1(ins.raw).error)
    ensures ins.cmd == Output && M1(ins.raw).Ok? ==>
      (r.Ok? <==> Fetchable(c.mem, c.idx, M1(ins.raw).value)) &&
      (r.Err? ==> r.error == FetchError(c.mem, c.idx, M1(ins.raw).value, ins.cmd))
    ensures ins.cmd == Input && r.Ok? ==>
      GetIn(c.input).Ok? && c.idx < |c.mem| && 0 <= c.mem[c.idx] < |c.mem| &&
      r.value.1 == c.(mem := c.mem[c.mem[c.idx] := GetIn(c.input).value.0], idx := c.idx + 1,
                      input := GetIn(c.input).value.1)
    ensures ins.cmd == Output && r.Ok? ==>
      M1(ins.raw).Ok? && Fetchable(c.mem, c.idx, M1(ins.raw).value) &&
      r.value.1 == c.(idx := c.idx + 1, output := PutOut(c.output, Operand(c.mem, c.idx, M1(ins.raw).value)))
  {
    match ins.cmd
    case Add =>
      var v :- Vals(ins, c);
      var m3 :- M3(ins.raw);
      var c' :- Put(m3, v.2, v.0 + v.1, ins.cmd);
      Ok((false, c'))
    case Multiply =>
      var v :- Vals(ins, c);
      var m3 :- M3(ins.raw);
      var c' :- Put(m3, v.2, v.0 * v.1, ins.cmd);
      Ok((false, c'))
    case Input =>
      var iv :- GetIn(c.input);
      var m1 :- M1(ins.raw);
      var c' :- Put(m1, c.(input := iv.1), iv.0, ins.cmd);
      Ok((false, c'))
    case Output =>
      var m1 :- M1(ins.raw);
      var g :- Get(m1, c, ins.cmd);
      Ok((false, g.1.(output := PutOut(g.1.output, g.0))))
    case Halt =>
      Ok((true, c.(idx := c.idx + 1)))
  }

  /** A word that decodes to Halt. */
  predicate IsHaltWord(w: int) {
    0 <= w < 0x1_0000 && w % 100 == 99
  }

  /** How far a successful step moves the instruction pointer, by opcode. */
  function Width(w: int): nat {
    if w % 100 in {1, 2} then 4 else 2
  }

  /** `Computer::step`. Indexing `mem[idx]` panics when `idx` is past the end,
      so the source requires `idx < |mem|`. */
  function Step(c: Machine): (r: Result<(bool, Machine)>)
    requires c.idx < |c.mem|
    ensures Decode(c.mem[c.idx]).Err? ==> r == Err(Decode(c.mem[c.idx]).error)
    ensures r.Ok? ==> (r.value.0 <==> IsHaltWord(c.mem[c.idx]))
    ensures r.Ok? ==> r.value.1.idx == c.idx + Width(c.mem[c.idx])
    ensures r.Ok? ==> |r.value.1.mem| == |c.mem|
    ensures IsHaltWord(c.mem[c.idx]) ==> r == Ok((true, c.(idx := c.idx + 2)))
  {
    var ins :- Decode(c.mem[c.idx]);
    Exec(ins, c.(idx := c.idx + 1))
  }

  /** `run` repeats `step` while it answers true, i.e. while the word just
      executed was Halt. Each Halt moves `idx` by two; the source indexes
      `mem[idx]` without a check, so every word reached this way must exist. */
  predicate RunDefined(c: Machine)
    decreases |c.mem| - c.idx
  {
    c.idx < |c.mem| && (IsHaltWord(c.mem[c.idx]) ==> RunDefined(c.(idx := c.idx + 2)))
  }

  /** `Computer::run`: the first error is returned; otherwise the machine
      after the first step that was not a Halt. */
  function Run(c: Machine): (r: Result<Machine>)
    requires RunDefined(c)
    ensures r.Ok? ==> |r.value.mem| == |c.mem| && r.value.idx > c.idx
    decreases |c.mem| - c.idx
  {
    var s :- Step(c);
    if s.0 then Run(s.1) else Ok(s.1)
  }

  /** Run-to-halt, as the loop was evidently meant to be: keep stepping
      while the step did not halt. Every word reached must exist, since
      `step` indexes `mem[idx]` without a check. */
  predicate HaltReachable(c: Machine)
    decreases |c.mem| - c.idx
  {
    c.idx < |c.mem| && (Step(c).Ok? && !Step(c).value.0 ==> HaltReachable(Step(c).value.1))
  }

  /** The corrected loop: the first error, or the machine just after the
      first Halt it executes. */
  function RunToHalt(c: Machine): (r: Result<Machine>)
    requires HaltReachable(c)
    ensures r.Ok? ==> |r.value.mem| == |c.mem| && c.idx + 2 <= r.value.idx <= |c.mem| + 1
    ensures r.Ok? ==> IsHaltWord(r.value.mem[r.value.idx - 2])
    decreases |c.mem| - c.idx
  {
    var s :- Step(c);
    if s.0 then
      assert IsHaltWord(c.mem[c.idx]) && s.1 == c.(idx := c.idx + 2);
      Ok(s.1)
    else
      var r := RunToHalt(s.1);
      assert r.Ok? ==> IsHaltWord(r.value.mem[r.value.idx - 2]);
      r
  }
}

module ComputerProperties {
  import opened Wrappers
  import opened IntcodeBase
  import opened Ports
  import opened Computer

  /** Reference reading of an operand whose mode digit is `p`: the word
      itself when immediate, the cell it names when positional. */
  function OperandValue(mem: seq<int>, p: nat, w: int): int
    requires p == 1 || 0 <= w < |mem|
  {
    if p == 1 then w else mem[w]
  }

  function ModeOfBit(p: nat): Mode {
    if p == 1 then Immediate else Position
  }

  /** Add (opcode 1) and Multiply (opcode 2) with in-range operands: the sum
      or product of the two operands is stored at the address named by the
      third, nothing else in memory changes, and `idx` moves by four. */
  lemma ArithmeticStep(c: Machine, op: nat, p1: nat, p2: nat)
    requires op == 1 || op == 2
    requires p1 <= 1 && p2 <= 1
    requires c.idx + 3 < |c.mem| && c.mem[c.idx] == p2 * 1_000 + p1 * 100 + op
    requires p1 == 0 ==> 0 <= c.mem[c.idx + 1] < |c.mem|
    requires p2 == 0 ==> 0 <= c.mem[c.idx + 2] < |c.mem|
    requires 0 <= c.mem[c.idx + 3] < |c.mem|
    ensures
      var a := OperandValue(c.mem, p1, c.mem[c.idx + 1]);
      var b := OperandValue(c.mem, p2, c.mem[c.idx + 2]);
      var v := if op == 1 then a + b else a * b;
      Step(c) == Ok((false, c.(mem := c.mem[c.mem[c.idx + 3] := v], idx := c.idx + 4)))
  {
    var w: U16 := c.mem[c.idx];
    var cmd := if op == 1 then Add else Multiply;
    var ins := Instruction(cmd, w);
    ArithmeticWord(w, op, p1, p2);
    var c1 := c.(idx := c.idx + 1);
    ArithmeticExec(c1, ins, p1, p2);
    assert Step(c) == Exec(ins, c1);
  }

  /** Add or Multiply once the opcode word has been passed: both inputs
      read, the result stored through the positional third operand. */
  lemma ArithmeticExec(c: Machine, ins: Instruction, p1: nat, p2: nat)
    requires ins.cmd == Add || ins.cmd == Multiply
    requires p1 <= 1 && p2 <= 1
    requires M1(ins.raw) == Ok(ModeOfBit(p1)) && M2(ins.raw) == Ok(ModeOfBit(p2)) && M3(ins.raw) == Ok(Position)
    requires c.idx + 2 < |c.mem|
    requires p1 == 0 ==> 0 <= c.mem[c.idx] < |c.mem|
    requires p2 == 0 ==> 0 <= c.mem[c.idx + 1] < |c.mem|
    requires 0 <= c.mem[c.idx + 2] < |c.mem|
    ensures
      var a := OperandValue(c.mem, p1, c.mem[c.idx]);
      var b := OperandValue(c.mem, p2, c.mem[c.idx + 1]);
      var v := if ins.cmd == Add then a + b else a * b;
      Exec(ins, c) == Ok((false, c.(mem := c.mem[c.mem[c.idx + 2] := v], idx := c.idx + 3)))
  {
    OperandsFetched(c, ins, p1, p2);
  }

  /** The word `p2 p1 0 op` decodes to Add or Multiply with the modes its
      digits select and a positional third operand. */
  lemma ArithmeticWord(w: U16, op: nat, p1: nat, p2: nat)
    requires op == 1 || op == 2
    requires p1 <= 1 && p2 <= 1
    requires w == p2 * 1_000 + p1 * 100 + op
    ensures Decode(w) == Ok(Instruction(if op == 1 then Add else Multiply, w))
    ensures M1(w) == Ok(ModeOfBit(p1)) && M2(w) == Ok(ModeOfBit(p2)) && M3(w) == Ok(Position)
  {
    ModePlaceValue(w, p2, p1, op);
    ModePlaceValue(w, 0, p2, p1 * 100 + op);
    ModePlaceValue(w, 0, 0, w);
  }

  /** The two input operands of Add or Multiply, each read under the mode
      its digit selects, leaving `idx` two cells further on. */
  lemma OperandsFetched(c: Machine, ins: Instruction, p1: nat, p2: nat)
    requires p1 <= 1 && p2 <= 1
    requires M1(ins.raw) == Ok(ModeOfBit(p1)) && M2(ins.raw) == Ok(ModeOfBit(p2))
    requires c.idx + 1 < |c.mem|
    requires p1 == 0 ==> 0 <= c.mem[c.idx] < |c.mem|
    requires p2 == 0 ==> 0 <= c.mem[c.idx + 1] < |c.mem|
    ensures Vals(ins, c) == Ok((OperandValue(c.mem, p1, c.mem[c.idx]),
                                OperandValue(c.mem, p2, c.mem[c.idx + 1]),
                                c.(idx := c.idx + 2)))
  {
    var g1 := Get(ModeOfBit(p1), c, ins.cmd);
    assert g1 == Ok((OperandValue(c.mem, p1, c.mem[c.idx]), c.(idx := c.idx + 1)));
  }

  /** A third operand in immediate mode is never written: Add and Multiply
      fail with `InvalidOutputMode` at the operand's index. */
  lemma ImmediateWriteFails(c: Machine, op: nat, p1: nat, p2: nat)
    requires op == 1 || op == 2
    requires p1 <= 1 && p2 <= 1
    requires c.idx + 3 < |c.mem| && c.mem[c.idx] == 10_000 + p2 * 1_000 + p1 * 100 + op
    requires p1 == 0 ==> 0 <= c.mem[c.idx + 1] < |c.mem|
    requires p2 == 0 ==> 0 <= c.mem[c.idx + 2] < |c.mem|
    ensures Step(c) == Err(InvalidOutputMode(c.idx + 3, if op == 1 then Add else Multiply))
  {
    var w: U16 := c.mem[c.idx];
    var ins := Instruction(if op == 1 then Add else Multiply, w);
    ImmediateTargetWord(w, op, p1, p2);
    var c1 := c.(idx := c.idx + 1);
    OperandsFetched(c1, ins, p1, p2);
    assert Step(c) == Exec(ins, c1);
  }

  /** The word `1 p2 p1 0 op` decodes to Add or Multiply with the modes its
      digits select and an immediate third operand. */
  lemma ImmediateTargetWord(w: U16, op: nat, p1: nat, p2: nat)
    requires op == 1 || op == 2
    requires p1 <= 1 && p2 <= 1
    requires w == 10_000 + p2 * 1_000 + p1 * 100 + op
    ensures Decode(w) == Ok(Instruction(if op == 1 then Add else Multiply, w))
    ensures M1(w) == Ok(ModeOfBit(p1)) && M2(w) == Ok(ModeOfBit(p2)) && M3(w) == Ok(Immediate)
  {
    ModePlaceValue(w, 10 + p2, p1, op);
    ModePlaceValue(w, 1, p2, p1 * 100 + op);
    ModePlaceValue(w, 0, 1, p2 * 1_000 + p1 * 100 + op);
  }

  /** Input (word 3) from a queue: the head is stored at the operand's
      address and removed from the queue; `idx` moves by two. An empty queue
      makes the step fail with the exhaustion error. */
  lemma InputStep(c: Machine)
    requires c.idx + 1 < |c.mem| && c.mem[c.idx] == 3
    requires 0 <= c.mem[c.idx + 1] < |c.mem|
    requires c.input.Queue?
    ensures |c.input.items| == 0 ==> Step(c) == Err(InputErrStr(QueueExhausted))
    ensures |c.input.items| > 0 ==>
      Step(c) == Ok((false, c.(mem := c.mem[c.mem[c.idx + 1] := c.input.items[0]],
                               idx := c.idx + 2,
                               input := Queue(c.input.items[1..]))))
  {
    assert M1(3) == Ok(Position);
  }

  /** Input into an immediate operand (word 103) fails once a value was read. */
  lemma InputImmediateFails(c: Machine)
    requires c.idx + 1 < |c.mem| && c.mem[c.idx] == 103
    requires GetIn(c.input).Ok?
    ensures Step(c) == Err(InvalidOutputMode(c.idx + 1, Input))
  {
    assert M1(103) == Ok(Immediate);
  }

  /** Output (word `p1 * 100 + 4`): the operand's value is handed to the
      output port; memory is unchanged and `idx` moves by two. */
  lemma OutputStep(c: Machine, p1: nat)
    requires p1 <= 1
    requires c.idx + 1 < |c.mem| && c.mem[c.idx] == p1 * 100 + 4
    requires p1 == 0 ==> 0 <= c.mem[c.idx + 1] < |c.mem|
    ensures Step(c) == Ok((false, c.(idx := c.idx + 2,
      output := PutOut(c.output, OperandValue(c.mem, p1, c.mem[c.idx + 1])))))
  {
    var w: U16 := c.mem[c.idx];
    ModePlaceValue(w, 0, p1, 4);
    assert M1(w) == Ok(ModeOfBit(p1));
  }

  /** The command an opcode from 1 to 4 names. */
  function CmdOf(op: nat): Cmd
    requires 1 <= op <= 4
  {
    match op
    case 1 => Add
    case 2 => Multiply
    case 3 => Input
    case _ => Output
  }

  /** Add, Multiply or Output (word `op`, all modes Position) whose first
      operand names no cell of memory: the step fails with InvalidAddress at
      that operand, carrying the operand word. */
  lemma PositionOperandOutOfRange(c: Machine, op: nat)
    requires op == 1 || op == 2 || op == 4
    requires c.idx + 1 < |c.mem| && c.mem[c.idx] == op
    requires !(0 <= c.mem[c.idx + 1] < |c.mem|)
    ensures Step(c) == Err(InvalidAddress(c.idx + 1, Some(c.mem[c.idx + 1]), Position, CmdOf(op)))
  {
    assert M1(op) == Ok(Position);
  }

  /** Add, Multiply or Output as the last word of memory: the first operand
      cell is missing, and the step fails with InvalidAddress and no word. */
  lemma OperandCellMissing(c: Machine, op: nat)
    requires op == 1 || op == 2 || op == 4
    requires c.idx + 1 == |c.mem| && c.mem[c.idx] == op
    ensures Step(c) == Err(InvalidAddress(c.idx + 1, None, Position, CmdOf(op)))
  {
    assert M1(op) == Ok(Position);
  }

  /** A first mode digit from 2 to 9 makes the step fail with InvalidMode,
      naming the word, operand 1 and the place value 100. Input reads its
      port first, so a failed read would take precedence there. */
  lemma BadModeDigitFails(c: Machine, op: nat, d: nat)
    requires 1 <= op <= 4 && 2 <= d <= 9
    requires c.idx < |c.mem| && c.mem[c.idx] == d * 100 + op
    requires op == 3 ==> GetIn(c.input).Ok?
    ensures Step(c) == Err(InvalidMode(d * 100 + op, 1, 100))
  {
    ModePlaceValue(d * 100 + op, 0, d, op);
  }

  /** Add or Multiply whose first operand reads fine but whose second mode
      digit is from 2 to 9: the step fails with InvalidMode for operand 2. */
  lemma BadSecondModeDigitFails(c: Machine, op: nat, d: nat)
    requires (op == 1 || op == 2) && 2 <= d <= 9
    requires c.idx + 1 < |c.mem| && c.mem[c.idx] == d * 1_000 + op
    requires 0 <= c.mem[c.idx + 1] < |c.mem|
    ensures Step(c) == Err(InvalidMode(d * 1_000 + op, 2, 1_000))
  {
    var w: U16 := d * 1_000 + op;
    ModePlaceValue(w, d * 10, 0, op);
    ModePlaceValue(w, 0, d, op);
    var ins := Instruction(CmdOf(op), w);
    var c1 := c.(idx := c.idx + 1);
    assert Vals(ins, c1) == Err(InvalidMode(w, 2, 1_000));
    assert Step(c) == Exec(ins, c1);
  }

  /** The machine reached by passing every leading Halt word, two cells at a time. */
  function SkipHalts(c: Machine): (c': Machine)
    requires RunDefined(c)
    ensures c' == c.(idx := c'.idx)
    ensures c.idx <= c'.idx < |c.mem| && !IsHaltWord(c.mem[c'.idx])
    ensures forall j :: c.idx <= j < c'.idx && (j - c.idx) % 2 == 0 ==> IsHaltWord(c.mem[j])
    decreases |c.mem| - c.idx
  {
    if IsHaltWord(c.mem[c.idx]) then SkipHalts(c.(idx := c.idx + 2)) else c
  }

  /** What `run` does: it passes the leading Halt words and then executes
      exactly one instruction that is not Halt, returning its error or the
      machine after it. */
  lemma {:induction false} RunIsOneStepAfterHalts(c: Machine)
    requires RunDefined(c)
    ensures var s := SkipHalts(c);
      Run(c) == match Step(s) { case Err(e) => Err(e) case Ok(st) => Ok(st.1) }
    ensures var s := SkipHalts(c);
      Step(s).Ok? ==> !Step(s).value.0
    decreases |c.mem| - c.idx
  {
    if IsHaltWord(c.mem[c.idx]) {
      RunIsOneStepAfterHalts(c.(idx := c.idx + 2));
    }
  }

  /** The memory images of the worked example after each of its two
      arithmetic instructions. */
  lemma WorkedExampleWrites()
    ensures [1, 9, 10, 3, 2, 3, 11, 0, 99, 30, 40, 50][3 := 40 + 30] == [1, 9, 10, 70, 2, 3, 11, 0, 99, 30, 40, 50]
    ensures [1, 9, 10, 70, 2, 3, 11, 0, 99, 30, 40, 50][0 := 70 * 50] == [3500, 9, 10, 70, 2, 3, 11, 0, 99, 30, 40, 50]
  {
  }

  /** The memory images written by the single-instruction examples. */
  lemma ShortExampleWrites()
    ensures [1002, 4, 3, 4, 33][4 := 33 * 3] == [1002, 4, 3, 4, 99]
    ensures [1101, 100, -1, 4, 0][4 := 100 + -1] == [1101, 100, -1, 4, 99]
    ensures [99, 7, 1101, 2, 3, 0][0 := 2 + 3] == [5, 7, 1101, 2, 3, 0]
    ensures [3, 0, 4, 0, 99][0 := 42] == [42, 0, 4, 0, 99]
  {
  }

  /** `run` on a machine whose current word is not Halt is that one step. */
  lemma RunIsStep(c: Machine, next: Machine)
    requires c.idx < |c.mem| && !IsHaltWord(c.mem[c.idx])
    requires Step(c) == Ok((false, next))
    ensures RunDefined(c) && Run(c) == Ok(next)
  {
  }

  /** The program of the computer.rs test: Multiply 33 by the immediate 3
      and store 99 over it; `run` stops after that one instruction. */
  lemma RunExample()
    ensures Run(New([1002, 4, 3, 4, 33], Queue([]), Collect([])))
         == Ok(Machine([1002, 4, 3, 4, 99], 4, Queue([]), Collect([])))
  {
    var c := New([1002, 4, 3, 4, 33], Queue([]), Collect([]));
    ArithmeticStep(c, 2, 0, 1);
    ShortExampleWrites();
    RunIsStep(c, Machine([1002, 4, 3, 4, 99], 4, Queue([]), Collect([])));
  }

  /** A negative immediate operand: 100 + (-1) is stored at address 4. */
  lemma RunNegativeImmediate()
    ensures Run(New([1101, 100, -1, 4, 0], Queue([]), Collect([])))
         == Ok(Machine([1101, 100, -1, 4, 99], 4, Queue([]), Collect([])))
  {
    var c := New([1101, 100, -1, 4, 0], Queue([]), Collect([]));
    ArithmeticStep(c, 1, 1, 1);
    ShortExampleWrites();
    RunIsStep(c, Machine([1101, 100, -1, 4, 99], 4, Queue([]), Collect([])));
  }

  /** `run` stops after the first instruction that is not Halt: on the
      three-instruction program below only the first Add has run. */
  lemma RunStopsAfterFirstInstruction()
    ensures Run(New([1, 9, 10, 3, 2, 3, 11, 0, 99, 30, 40, 50], Queue([]), Collect([])))
         == Ok(Machine([1, 9, 10, 70, 2, 3, 11, 0, 99, 30, 40, 50], 4, Queue([]), Collect([])))
  {
    var c := New([1, 9, 10, 3, 2, 3, 11, 0, 99, 30, 40, 50], Queue([]), Collect([]));
    ArithmeticStep(c, 1, 0, 0);
    WorkedExampleWrites();
    RunIsStep(c, Machine([1, 9, 10, 70, 2, 3, 11, 0, 99, 30, 40, 50], 4, Queue([]), Collect([])));
  }

  /** `run` keeps going while it meets Halt: the leading 99 moves `idx` to 2,
      then the Add there runs and `run` returns. */
  lemma RunPassesHalt()
    ensures Run(New([99, 7, 1101, 2, 3, 0], Queue([]), Collect([])))
         == Ok(Machine([5, 7, 1101, 2, 3, 0], 6, Queue([]), Collect([])))
  {
    var c := New([99, 7, 1101, 2, 3, 0], Queue([]), Collect([]));
    var c2 := c.(idx := 2);
    ArithmeticStep(c2, 1, 1, 1);
    ShortExampleWrites();
    RunIsStep(c2, Machine([5, 7, 1101, 2, 3, 0], 6, Queue([]), Collect([])));
    RunPastHalt(c);
  }

  /** `run` at a Halt word goes on two cells later. */
  lemma RunPastHalt(c: Machine)
    requires c.idx < |c.mem| && IsHaltWord(c.mem[c.idx]) && RunDefined(c.(idx := c.idx + 2))
    ensures RunDefined(c) && Run(c) == Run(c.(idx := c.idx + 2))
  {
  }

  /** A Halt in the last two cells sends `idx` past the end, where the next
      `step` would index out of bounds: `run` is not defined there. */
  lemma HaltAtEndPanics(i: InPort, o: OutPort)
    ensures !RunDefined(New([99], i, o))
    ensures !RunDefined(New([1101, 0, 0, 0, 99, 0], i, o).(idx := 4))
  {
  }

  /** Input then Output: a queued value is stored, and `run` stops after the
      Input, before the Output runs. */
  lemma RunInputThenStop()
    ensures Run(New([3, 0, 4, 0, 99], Queue([42, 7]), Collect([])))
         == Ok(Machine([42, 0, 4, 0, 99], 2, Queue([7]), Collect([])))
    ensures Run(New([3, 0, 4, 0, 99], Queue([]), Collect([])))
         == Err(InputErrStr(QueueExhausted))
  {
    var c := New([3, 0, 4, 0, 99], Queue([42, 7]), Collect([]));
    InputStep(c);
    assert [42, 7][1..] == [7];
    ShortExampleWrites();
    RunIsStep(c, Machine([42, 0, 4, 0, 99], 2, Queue([7]), Collect([])));
    InputStep(c.(input := Queue([])));
  }

  /** A step that does not halt hands the corrected loop on to the next
      machine, from which a Halt is still reachable. */
  lemma RunToHaltContinues(c: Machine)
    requires HaltReachable(c) && Step(c).Ok? && !Step(c).value.0
    ensures HaltReachable(Step(c).value.1) && RunToHalt(c) == RunToHalt(Step(c).value.1)
  {
  }

  /** A Halt word with its operand cell present: the corrected loop stops
      right there, two cells on. */
  lemma RunToHaltAtHalt(c: Machine)
    requires c.idx < |c.mem| && IsHaltWord(c.mem[c.idx])
    ensures HaltReachable(c) && RunToHalt(c) == Ok(c.(idx := c.idx + 2))
  {
  }

  /** A step that does not halt, followed by a machine from which a Halt is
      reachable: the corrected loop goes on from that machine. */
  lemma RunToHaltThrough(c: Machine, next: Machine)
    requires c.idx < |c.mem| && Step(c) == Ok((false, next)) && HaltReachable(next)
    ensures HaltReachable(c) && RunToHalt(c) == RunToHalt(next)
  {
  }

  /** The second and third instructions of the worked example: Multiply,
      then Halt. */
  lemma RunToHaltExampleTail()
    ensures HaltReachable(Machine([1, 9, 10, 70, 2, 3, 11, 0, 99, 30, 40, 50], 4, Queue([]), Collect([])))
    ensures RunToHalt(Machine([1, 9, 10, 70, 2, 3, 11, 0, 99, 30, 40, 50], 4, Queue([]), Collect([])))
         == Ok(Machine([3500, 9, 10, 70, 2, 3, 11, 0, 99, 30, 40, 50], 10, Queue([]), Collect([])))
  {
    var c1 := Machine([1, 9, 10, 70, 2, 3, 11, 0, 99, 30, 40, 50], 4, Queue([]), Collect([]));
    var c2 := Machine([3500, 9, 10, 70, 2, 3, 11, 0, 99, 30, 40, 50], 8, Queue([]), Collect([]));
    ArithmeticStep(c1, 2, 0, 0);
    WorkedExampleWrites();
    RunToHaltAtHalt(c2);
    RunToHaltThrough(c1, c2);
  }

  /** The corrected loop runs the worked example to its Halt: 70 is stored
      at 3, then 70 * 50 = 3500 at 0, then Halt leaves `idx` at 10. */
  lemma RunToHaltExample()
    ensures HaltReachable(New([1, 9, 10, 3, 2, 3, 11, 0, 99, 30, 40, 50], Queue([]), Collect([])))
    ensures RunToHalt(New([1, 9, 10, 3, 2, 3, 11, 0, 99, 30, 40, 50], Queue([]), Collect([])))
         == Ok(Machine([3500, 9, 10, 70, 2, 3, 11, 0, 99, 30, 40, 50], 10, Queue([]), Collect([])))
  {
    var c0 := New([1, 9, 10, 3, 2, 3, 11, 0, 99, 30, 40, 50], Queue([]), Collect([]));
    var c1 := Machine([1, 9, 10, 70, 2, 3, 11, 0, 99, 30, 40, 50], 4, Queue([]), Collect([]));
    ArithmeticStep(c0, 1, 0, 0);
    WorkedExampleWrites();
    RunToHaltExampleTail();
    RunToHaltThrough(c0, c1);
  }

  /** The corrected loop on the negative-immediate example: the Add stores
      99, which is then executed as Halt. */
  lemma RunToHaltNegativeImmediate()
    ensures HaltReachable(New([1101, 100, -1, 4, 0], Queue([]), Collect([])))
    ensures RunToHalt(New([1101, 100, -1, 4, 0], Queue([]), Collect([])))
         == Ok(Machine([1101, 100, -1, 4, 99], 6, Queue([]), Collect([])))
  {
    var c0 := New([1101, 100, -1, 4, 0], Queue([]), Collect([]));
    var c1 := Machine([1101, 100, -1, 4, 99], 4, Queue([]), Collect([]));
    ArithmeticStep(c0, 1, 1, 1);
    ShortExampleWrites();
    RunToHaltAtHalt(c1);
    RunToHaltThrough(c0, c1);
  }
}

=== FILE: crossed_wires.dfy ===
/** Walking two wires on a grid (day_03/src/main.rs): directions, unit
    moves, parsing one path segment, and marking the cells a segment covers
    (first wire) or checking them against the first wire (second wire). */
module CrossedWires {
  import opened Decimal

  import opened Wrappers

  datatype Dir = Right | Down | Left | Up

  predicate IsDirChar(c: char) {
    c in "rRdDlLuU"
  }

  /** `Dir::from_char`: either case; any other character panics. */
  function FromChar(c: char): (d: Dir)
    requires IsDirChar(c)
    ensures d == Right <==> c == 'r' || c == 'R'
    ensures d == Down <==> c == 'd' || c == 'D'
    ensures d == Left <==> c == 'l' || c == 'L'
    ensures d == Up <==> c == 'u' || c == 'U'
  {
    match c
    case 'r' => Right
    case 'R' => Right
    case 'd' => Down
    case 'D' => Down
    case 'l' => Left
    case 'L' => Left
    case 'u' => Up
    case 'U' => Up
  }

  /** `Pos`: `x` grows going up, `y` grows going right. */
  datatype Pos = Pos(x: int, y: int)

  /** The position `k` cells from `p` in direction `d`. */
  function Offset(p: Pos, d: Dir, k: int): Pos {
    match d
    case Right => Pos(p.x, p.y + k)
    case Down => Pos(p.x - k, p.y)
    case Left => Pos(p.x, p.y - k)
    case Up => Pos(p.x + k, p.y)
  }

  /** `Pos::right`, `down`, `left`, `up`: one coordinate changes by one. */
  function Move(p: Pos, d: Dir): (q: Pos)
    ensures q == Offset(p, d, 1)
    ensures (q.x == p.x && (q.y == p.y + 1 || q.y == p.y - 1)) || (q.y == p.y && (q.x == p.x + 1 || q.x == p.x - 1))
  {
    match d
    case Right => p.(y := p.y + 1)
    case Down => p.(x := p.x - 1)
    case Left => p.(y := p.y - 1)
    case Up => p.(x := p.x + 1)
  }

  /** `Pos::reset`. */
  function Reset(p: Pos): (q: Pos)
    ensures q.x == 0 && q.y == 0
  {
    Pos(0, 0)
  }

  /** Distinct distances along one direction are distinct cells. */
  lemma OffsetInjective(p: Pos, d: Dir, i: int, j: int)
    requires i != j
    ensures Offset(p, d, i) != Offset(p, d, j)
  {
  }

  /** One unit move after `k` cells is `k + 1` cells. */
  lemma MoveOffset(p: Pos, d: Dir, k: int)
    ensures Move(Offset(p, d, k), d) == Offset(p, d, k + 1)
  {
  }

  /** `Inst`: a direction and a number of unit steps. */
  datatype Inst = Inst(dir: Dir, steps: nat)

  /** What `usize::from_str` accepts: an optional `+`, then decimal digits. */
  predicate IsUnsigned(t: string) {
    if |t| > 0 && t[0] == '+' then |t| > 1 && AllDigits(t[1..]) else |t| > 0 && AllDigits(t)
  }

  function ParseUnsigned(t: string): nat
    requires IsUnsigned(t)
  {
    if t[0] == '+' then ParseNat(t[1..]) else ParseNat(t)
  }

  /** `Inst::from_str`: the first character is the direction, the rest the
      step count. Anything else panics in the source. */
  function InstFromStr(s: string): (i: Inst)
    requires |s| >= 1 && IsDirChar(s[0]) && IsUnsigned(s[1..])
    ensures i.dir == FromChar(s[0]) && i.steps == ParseUnsigned(s[1..])
  {
    Inst(FromChar(s[0]), ParseUnsigned(s[1..]))
  }

  function DirChar(d: Dir): char {
    match d
    case Right => 'R'
    case Down => 'D'
    case Left => 'L'
    case Up => 'U'
  }

  /** Writing a segment as the puzzle does ("R75", "U7") and parsing it back
      gives the same segment. */
  lemma InstRoundTrip(d: Dir, n: nat)
    ensures var s := [DirChar(d)] + NatToString(n);
      |s| >= 1 && IsDirChar(s[0]) && IsUnsigned(s[1..]) && InstFromStr(s) == Inst(d, n)
  {
    var s := [DirChar(d)] + NatToString(n);
    assert s[1..] == NatToString(n);
    ParseNatToString(n);
  }

  /** The state `mark_spots` works on: the first wire's cells with the step
      count at which it first reached them, the current position, the step
      counter, and the lowest crossing found so far. */
  datatype Walk = Walk(seen: map<Pos, nat>, pos: Pos, steps: nat, lowest: Option<nat>)

  /** `lowest.get_or_insert(dist)` followed by keeping the smaller value. */
  function Lower(lowest: Option<nat>, dist: nat): (r: Option<nat>)
    ensures r.Some? && r.value <= dist
    ensures lowest.Some? ==> r.value <= lowest.value
    ensures r == Some(dist) || r == lowest
  {
    match lowest
    case None => Some(dist)
    case Some(prev) => if dist < prev then Some(dist) else lowest
  }

  /** `lowest` is the crossing offered by the cell `j` steps along `d`. */
  predicate Attains(w: Walk, d: Dir, j: int, lowest: Option<nat>) {
    var q := Offset(w.pos, d, j);
    q in w.seen && lowest == Some(w.steps + j + w.seen[q])
  }

  /** What the first wire's record holds after `i` moves from `w` along
      `d`: the cells recorded before, untouched, and every cell passed that
      was new, with the step count at which it was reached. */
  ghost predicate RecordedUpTo(w: Walk, d: Dir, i: nat, seen: map<Pos, nat>) {
    && seen.Keys == w.seen.Keys + (set j | 1 <= j <= i :: Offset(w.pos, d, j))
    && (forall q :: q in w.seen ==> seen[q] == w.seen[q])
    && (forall j :: 1 <= j <= i && Offset(w.pos, d, j) !in w.seen ==> seen[Offset(w.pos, d, j)] == w.steps + j)
  }

  /** The cells passed after `i + 1` moves are those after `i` moves and
      the new one, which none of the earlier ones equals. */
  lemma PassedStep(p: Pos, d: Dir, i: nat)
    ensures (set j | 1 <= j <= i + 1 :: Offset(p, d, j)) == (set j | 1 <= j <= i :: Offset(p, d, j)) + {Offset(p, d, i + 1)}
    ensures forall j :: 1 <= j <= i ==> Offset(p, d, j) != Offset(p, d, i + 1)
  {
    forall j | 1 <= j <= i
      ensures Offset(p, d, j) != Offset(p, d, i + 1)
    {
      OffsetInjective(p, d, j, i + 1);
    }
  }

  /** One more move keeps the record complete: the new cell is added unless
      it is already there. */
  lemma {:induction false} RecordStep(w: Walk, d: Dir, i: nat, seen: map<Pos, nat>)
    requires RecordedUpTo(w, d, i, seen)
    ensures var p := Offset(w.pos, d, i + 1);
      RecordedUpTo(w, d, i + 1, if p in seen then seen else seen[p := w.steps + i + 1])
  {
    var p := Offset(w.pos, d, i + 1);
    PassedStep(w.pos, d, i);
    if p !in seen {
      var seen' := seen[p := w.steps + i + 1];
      assert seen'.Keys == seen.Keys + {p};
    }
  }

  /** `Inst::mark_spots` on the first wire: `inst.steps` unit moves, each
      new cell recorded with the step count at which it was reached; a cell
      already recorded keeps its earlier count. */
  method MarkFirst(inst: Inst, w: Walk) returns (r: Walk)
    ensures r.pos == Offset(w.pos, inst.dir, inst.steps)
    ensures r.steps == w.steps + inst.steps
    ensures r.lowest == w.lowest
    ensures r.seen.Keys == w.seen.Keys + set j | 1 <= j <= inst.steps :: Offset(w.pos, inst.dir, j)
    ensures forall q :: q in w.seen ==> r.seen[q] == w.seen[q]
    ensures forall j :: 1 <= j <= inst.steps && Offset(w.pos, inst.dir, j) !in w.seen ==>
      r.seen[Offset(w.pos, inst.dir, j)] == w.steps + j
  {
    var seen: map<Pos, nat>, pos: Pos, steps: nat := w.seen, w.pos, w.steps;
    var i := 0;
    assert (set j | 1 <= j <= 0 :: Offset(w.pos, inst.dir, j)) == {};
    while i < inst.steps
      invariant 0 <= i <= inst.steps
      invariant pos == Offset(w.pos, inst.dir, i)
      invariant steps == w.steps + i
      invariant RecordedUpTo(w, inst.dir, i, seen)
    {
      RecordStep(w, inst.dir, i, seen);
      MoveOffset(w.pos, inst.dir, i);
      pos := Move(pos, inst.dir);
      steps := steps + 1;
      i := i + 1;
      if pos !in seen {
        seen := seen[pos := steps];
      }
    }
    r := Walk(seen, pos, steps, w.lowest);
  }

  /** `Inst::mark_spots` on the second wire: the record is only read; each
      recorded cell on the way offers the sum of both step counts, and
      `lowest` becomes the least of those and its old value. */
  method MarkSecond(inst: Inst, w: Walk) returns (r: Walk)
    ensures r.pos == Offset(w.pos, inst.dir, inst.steps)
    ensures r.steps == w.steps + inst.steps
    ensures r.seen == w.seen
    ensures w.lowest.Some? ==> r.lowest.Some? && r.lowest.value <= w.lowest.value
    ensures forall j :: 1 <= j <= inst.steps && Offset(w.pos, inst.dir, j) in w.seen ==>
      r.lowest.Some? && r.lowest.value <= w.steps + j + w.seen[Offset(w.pos, inst.dir, j)]
    ensures r.lowest == w.lowest || exists j :: 1 <= j <= inst.steps && Attains(w, inst.dir, j, r.lowest)
  {
    var pos: Pos, steps: nat, lowest: Option<nat> := w.pos, w.steps, w.lowest;
    var i := 0;
    while i < inst.steps
      invariant 0 <= i <= inst.steps
      invariant pos == Offset(w.pos, inst.dir, i)
      invariant steps == w.steps + i
      invariant w.lowest.Some? ==> lowest.Some? && lowest.value <= w.lowest.value
      invariant forall j :: 1 <= j <= i && Offset(w.pos, inst.dir, j) in w.seen ==>
        lowest.Some? && lowest.value <= w.steps + j + w.seen[Offset(w.pos, inst.dir, j)]
      invariant lowest == w.lowest || exists j :: 1 <= j <= i && Attains(w, inst.dir, j, lowest)
    {
      MoveOffset(w.pos, inst.dir, i);
      pos := Move(pos, inst.dir);
      steps := steps + 1;
      i := i + 1;
      if pos in w.seen {
        var prev := lowest;
        lowest := Lower(lowest, steps + w.seen[pos]);
        if lowest != prev {
          assert Attains(w, inst.dir, i, lowest);
        }
      }
    }
    r := Walk(w.seen, pos, steps, lowest);
  }

  /** `Inst::mark_spots`: `inst.steps` unit moves that record cells on the
      first wire and look them up on the second. */
  method MarkSpots(inst: Inst, w: Walk, first: bool) returns (r: Walk)
    ensures r.pos == Offset(w.pos, inst.dir, inst.steps)
    ensures r.steps == w.steps + inst.steps
    ensures first ==> r.lowest == w.lowest
    ensures first ==> r.seen.Keys == w.seen.Keys + set j | 1 <= j <= inst.steps :: Offset(w.pos, inst.dir, j)
    ensures first ==> forall q :: q in w.seen ==> r.seen[q] == w.seen[q]
    ensures first ==> forall j :: 1 <= j <= inst.steps && Offset(w.pos, inst.dir, j) !in w.seen ==>
      r.seen[Offset(w.pos, inst.dir, j)] == w.steps + j
    ensures !first ==> r.seen == w.seen
    ensures !first && w.lowest.Some? ==> r.lowest.Some? && r.lowest.value <= w.lowest.value
    ensures !first ==> forall j :: 1 <= j <= inst.steps && Offset(w.pos, inst.dir, j) in w.seen ==>
      r.lowest.Some? && r.lowest.value <= w.steps + j + w.seen[Offset(w.pos, inst.dir, j)]
    ensures !first ==> r.lowest == w.lowest || exists j :: 1 <= j <= inst.steps && Attains(w, inst.dir, j, r.lowest)
  {
    if first {
      r := MarkFirst(inst, w);
    } else {
      r := MarkSecond(inst, w);
    }
  }
}

=== FILE: decimal.dfy ===
/** Decimal text for integers, as Rust's `Display` writes an `i32` and as
    `str::parse` reads an unsigned number back. Used by the string output
    port and by the puzzle parsers. */
module Decimal {

  predicate IsDigitChar(c: char) {
    '0' <= c <= '9'
  }

  predicate AllDigits(s: string) {
    forall i :: 0 <= i < |s| ==> IsDigitChar(s[i])
  }

  function DigitValue(c: char): (d: nat)
    requires IsDigitChar(c)
    ensures d <= 9
  {
    c as int - '0' as int
  }

  function DigitChar(d: nat): (c: char)
    requires d <= 9
    ensures IsDigitChar(c)
    ensures DigitValue(c) == d
  {
    (d + '0' as int) as char
  }

  /** Shortest decimal rendering of a natural number (no leading zeros). */
  function NatToString(n: nat): (s: string)
    ensures |s| > 0 && AllDigits(s)
    ensures |s| > 1 ==> s[0] != '0'
    decreases n
  {
    if n < 10 then [DigitChar(n)] else NatToString(n / 10) + [DigitChar(n % 10)]
  }

  /** Rust's `Display` for a signed integer: a `-` before the magnitude when negative. */
  function IntToString(i: int): (s: string)
    ensures |s| > 0
    ensures (s[0] == '-') <==> i < 0
  {
    if i < 0 then "-" + NatToString(-i) else NatToString(i)
  }

  /** The value of a non-empty run of decimal digits. */
  function ParseNat(s: string): nat
    requires |s| > 0 && AllDigits(s)
    decreases |s|
  {
    if |s| == 1 then DigitValue(s[0])
    else 10 * ParseNat(s[..|s| - 1]) + DigitValue(s[|s| - 1])
  }

  /** Reading back what `NatToString` wrote gives the same number. */
  lemma {:induction false} ParseNatToString(n: nat)
    ensures ParseNat(NatToString(n)) == n
    decreases n
  {
    if n >= 10 {
      var s := NatToString(n);
      assert s[..|s| - 1] == NatToString(n / 10);
      ParseNatToString(n / 10);
    }
  }
}

=== FILE: gravity_assist.dfy ===
/** The first Intcode interpreter (day_02/src/main.rs): opcodes 1, 2 and 99,
    every operand positional, instructions at indices 0, 4, 8, ... of a
    vector of `usize`. The source panics on a bad opcode or an index out of
    bounds; here those runs are the ones `Exec` answers `None` for. */
module GravityAssist {

  import opened Wrappers

  /** One instruction at `i`: `None` when the source panics, otherwise the
      vector after the write (`Some` of the same vector for opcode 99). */
  function StepAt(v: seq<nat>, i: nat): (r: Option<seq<nat>>)
    requires i < |v|
    ensures v[i] == 99 ==> r == Some(v)
    ensures v[i] != 1 && v[i] != 2 && v[i] != 99 ==> r.None?
    ensures r.Some? ==> |r.value| == |v|
    ensures (v[i] == 1 || v[i] == 2) && i + 3 < |v| && v[i + 1] < |v| && v[i + 2] < |v| && v[i + 3] < |v| ==> r.Some?
    ensures r.Some? && v[i] != 99 ==>
      i + 3 < |v| && v[i + 1] < |v| && v[i + 2] < |v| && v[i + 3] < |v| &&
      r.value == v[v[i + 3] := if v[i] == 1 then v[v[i + 1]] + v[v[i + 2]] else v[v[i + 1]] * v[v[i + 2]]]
  {
    if v[i] == 99 then Some(v)
    else if i + 3 >= |v| || v[i + 1] >= |v| || v[i + 2] >= |v| then None
    else if v[i] != 1 && v[i] != 2 then None
    else if v[i + 3] >= |v| then None
    else
      var src1, src2 := v[v[i + 1]], v[v[i + 2]];
      Some(v[v[i + 3] := if v[i] == 1 then src1 + src2 else src1 * src2])
  }

  /** Reference semantics of `run` from instruction index `i`. */
  function Exec(v: seq<nat>, i: nat): (r: Option<seq<nat>>)
    ensures r.Some? ==> |r.value| == |v|
    decreases |v| - i
  {
    if i >= |v| then Some(v)
    else if v[i] == 99 then Some(v)
    else
      match StepAt(v, i)
      case None => None
      case Some(v') => Exec(v', i + 4)
  }

  /** A run that does not panic and meets an opcode other than 99 performs
      that instruction and carries on four cells later. */
  lemma ExecUnfold(v: seq<nat>, i: nat) returns (next: seq<nat>)
    requires i < |v| && v[i] != 99 && Exec(v, i).Some?
    ensures StepAt(v, i) == Some(next)
    ensures Exec(v, i) == Exec(next, i + 4)
    ensures v[i] == 1 || v[i] == 2
    ensures i + 3 < |v| && v[i + 1] < |v| && v[i + 2] < |v| && v[i + 3] < |v|
    ensures next == v[v[i + 3] := if v[i] == 1 then v[v[i + 1]] + v[v[i + 2]] else v[v[i + 1]] * v[v[i + 2]]]
  {
    next := StepAt(v, i).value;
  }

  /** `run`: the `step_by(4)` loop over a working array. */
  method Run(program: seq<nat>) returns (result: seq<nat>)
    requires Exec(program, 0).Some?
    ensures result == Exec(program, 0).value
    ensures |result| == |program|
  {
    var v := program;
    var i := 0;
    while i < |v|
      invariant |v| == |program|
      invariant Exec(v, i) == Exec(program, 0)
      decreases |v| - i
    {
      var op := v[i];
      if op == 99 {
        break;
      }
      ghost var next := ExecUnfold(v, i);
      var dst := v[i + 3];
      var src1 := v[v[i + 1]];
      var src2 := v[v[i + 2]];
      if op == 1 {
        v := v[dst := src1 + src2];
      } else {
        v := v[dst := src1 * src2];
      }
      assert v == next;
      i := i + 4;
    }
    result := v;
  }

  /** The worked example of day_02: two instructions, then 99. */
  lemma RunExample()
    ensures Exec([1, 9, 10, 3, 2, 3, 11, 0, 99, 30, 40, 50], 0)
         == Some([3500, 9, 10, 70, 2, 3, 11, 0, 99, 30, 40, 50])
  {
    var v0: seq<nat> := [1, 9, 10, 3, 2, 3, 11, 0, 99, 30, 40, 50];
    var v1: seq<nat> := [1, 9, 10, 70, 2, 3, 11, 0, 99, 30, 40, 50];
    var v2: seq<nat> := [3500, 9, 10, 70, 2, 3, 11, 0, 99, 30, 40, 50];
    assert v0[3 := 30 + 40] == v1;
    assert StepAt(v0, 0) == Some(v1);
    assert v1[0 := 70 * 50] == v2;
    assert StepAt(v1, 4) == Some(v2);
    assert Exec(v2, 8) == Some(v2);
  }

  /** The further unit tests of day_02; the last program overwrites its own
      second opcode with 2 before reaching it. */
  lemma RunExtras()
    ensures Exec([1, 0, 0, 0, 99], 0) == Some([2, 0, 0, 0, 99])
    ensures Exec([2, 3, 0, 3, 99], 0) == Some([2, 3, 0, 6, 99])
    ensures Exec([2, 4, 4, 5, 99, 0], 0) == Some([2, 4, 4, 5, 99, 9801])
    ensures Exec([1, 1, 1, 4, 99, 5, 6, 0, 99], 0) == Some([30, 1, 1, 4, 2, 5, 6, 0, 99])
  {
    var a: seq<nat> := [1, 0, 0, 0, 99];
    assert a[0 := 1 + 1] == [2, 0, 0, 0, 99];
    assert Exec([2, 0, 0, 0, 99], 4) == Some([2, 0, 0, 0, 99]);
    var b: seq<nat> := [2, 3, 0, 3, 99];
    assert b[3 := 3 * 2] == [2, 3, 0, 6, 99];
    assert Exec([2, 3, 0, 6, 99], 4) == Some([2, 3, 0, 6, 99]);
    var c: seq<nat> := [2, 4, 4, 5, 99, 0];
    assert c[5 := 99 * 99] == [2, 4, 4, 5, 99, 9801];
    assert Exec([2, 4, 4, 5, 99, 9801], 4) == Some([2, 4, 4, 5, 99, 9801]);
    var d0: seq<nat> := [1, 1, 1, 4, 99, 5, 6, 0, 99];
    var d1: seq<nat> := [1, 1, 1, 4, 2, 5, 6, 0, 99];
    var d2: seq<nat> := [30, 1, 1, 4, 2, 5, 6, 0, 99];
    assert d0[4 := 1 + 1] == d1;
    assert StepAt(d0, 0) == Some(d1);
    assert d1[0 := 5 * 6] == d2;
    assert StepAt(d1, 4) == Some(d2);
    assert Exec(d2, 8) == Some(d2);
  }

  /** An opcode other than 1, 2 or 99 stops the run with a panic. */
  lemma BadOpcodePanics()
    ensures Exec([7, 0, 0, 0, 99], 0).None?
    ensures Exec([1, 0, 0, 0, 5, 0, 0, 0], 0).None?
  {
    var v: seq<nat> := [1, 0, 0, 0, 5, 0, 0, 0];
    assert v[0 := 1 + 1] == [2, 0, 0, 0, 5, 0, 0, 0];
    assert StepAt(v, 0) == Some([2, 0, 0, 0, 5, 0, 0, 0]);
  }
}

=== FILE: intcode_base.dfy ===
/** Types shared by the Intcode computer and its ports: the addressing
    modes, the commands, and the errors a step can fail with
    (intcode/src/computer.rs and intcode/src/input.rs). */
module IntcodeBase {
  import opened Wrappers

  /** Addressing mode of one operand. */
  datatype Mode = Immediate | Position

  /** The commands this snapshot of the interpreter knows. */
  datatype Cmd = Add | Multiply | Input | Output | Halt {
    /** `Cmd::is_stop`: the flag `exec` returns. */
    predicate IsStop() {
      this == Halt
    }
  }

  /** The error variants the computer and the input ports actually raise.
      `at` is the index of the operand word that was being fetched. */
  datatype CompError =
    | InvalidInstruction(word: int)
    | InvalidMode(raw: int, pos: nat, divisor: nat)
    | InvalidAddress(at: nat, operand: Option<int>, mode: Mode, cmd: Cmd)
    | InvalidOutputMode(at: nat, cmd: Cmd)
    | InputErrStr(message: string)

  /** Rust's `Result<T, CompError>`. */
  type Result<+T> = Outcome<T, CompError>
}

=== FILE: orbit_map.dfy ===
/** The orbit map (day_06/src/main.rs): each line `A)B` says that B orbits
    A. `calc` builds the map from each object to the objects orbiting it,
    starts at the objects that orbit nothing, and sums, over the objects
    below them, how many orbits each is away from its root. */
module OrbitMap {

  import opened Wrappers

  /** An `anyhow` result: a value or an error message. */
  type Result<+T> = Outcome<T, string>

  /** Index of the first `)` in `s`, or `|s|` when there is none. */
  function FindParen(s: string): (k: nat)
    ensures k <= |s|
    ensures forall i :: 0 <= i < k ==> s[i] != ')'
    ensures k < |s| ==> s[k] == ')'
    decreases |s|
  {
    if |s| == 0 then 0
    else if s[0] == ')' then 0
    else 1 + FindParen(s[1..])
  }

  /** The message `get_pairs` fails with, quoting the line. */
  function NoParenMessage(s: string): string {
    "No ')' char in the orbit string `" + s + "`"
  }

  /** `get_pairs`: split at the first `)`, dropping it. */
  function GetPairs(s: string): (r: Result<(string, string)>)
    ensures r.Ok? <==> ')' in s
    ensures r.Ok? ==> ')' !in r.value.0 && s == r.value.0 + ")" + r.value.1
    ensures r.Err? ==> r.error == NoParenMessage(s)
  {
    var k := FindParen(s);
    if k == |s| then Err(NoParenMessage(s))
    else
      assert s == s[..k] + ")" + s[k + 1..];
      Ok((s[..k], s[k + 1..]))
  }

  /** The split is the only one whose left part holds no `)`. */
  lemma GetPairsUnique(s: string, a: string, b: string)
    requires ')' !in a && s == a + ")" + b
    ensures GetPairs(s) == Ok((a, b))
  {
    assert s[|a|] == ')';
    assert forall i :: 0 <= i < |a| ==> s[i] == a[i];
    assert FindParen(s) == |a|;
    assert s[..|a|] == a;
    assert s[|a| + 1..] == b;
  }

  /** The split tests of day_06. */
  lemma GetPairsExamples()
    ensures GetPairs("A)B") == Ok(("A", "B"))
    ensures GetPairs("Q64)6PD") == Ok(("Q64", "6PD"))
    ensures GetPairs("A)B)") == Ok(("A", "B)"))
    ensures GetPairs("A))B") == Ok(("A", ")B"))
    ensures GetPairs("ABC").Err?
  {
    GetPairsUnique("A)B", "A", "B");
    GetPairsUnique("Q64)6PD", "Q64", "6PD");
    GetPairsUnique("A)B)", "A", "B)");
    GetPairsUnique("A))B", "A", ")B");
    assert ')' !in "ABC";
  }

  /** Objects orbiting each object. The source keeps them in a `HashSet`,
      whose iteration order is unspecified; here they are a list without
      repetitions in order of first mention. */
  type Children = map<string, seq<string>>

  /** The state the first loop of `calc` builds: `children` is `orbits`,
      `keys` lists its keys in order of first mention, and `orbiters` is
      `does_orbit`. */
  datatype Graph = Graph(children: Children, keys: seq<string>, orbiters: set<string>)

  predicate NoRepeats(xs: seq<string>) {
    forall i, j :: 0 <= i < j < |xs| ==> xs[i] != xs[j]
  }

  /** The map is consistent: `keys` are exactly the map's keys, once each,
      and no object is listed twice under one key. */
  ghost predicate WellFormed(g: Graph) {
    && (forall k :: k in g.children <==> k in g.keys)
    && NoRepeats(g.keys)
    && (forall k :: k in g.children ==> NoRepeats(g.children[k]))
  }

  const Empty := Graph(map[], [], {})

  /** One line `inner)outer`: the entry for `inner` gains `outer` unless it
      is already there, and `outer` is marked as orbiting something. */
  function AddOrbit(g: Graph, inner: string, outer: string): (g': Graph)
    requires WellFormed(g)
    ensures WellFormed(g')
    ensures g'.children.Keys == g.children.Keys + {inner}
    ensures g'.orbiters == g.orbiters + {outer}
    ensures outer in g'.children[inner]
    ensures forall k :: k in g.children && k != inner ==> g'.children[k] == g.children[k]
    ensures forall x :: x in g'.children[inner] <==> x == outer || (inner in g.children && x in g.children[inner])
  {
    var prev := if inner in g.children then g.children[inner] else [];
    var kids := if outer in prev then prev else prev + [outer];
    var keys := if inner in g.children then g.keys else g.keys + [inner];
    Graph(g.children[inner := kids], keys, g.orbiters + {outer})
  }

  /** Index of the first line without `)`, or `|lines|` when every line
      has one. */
  function FirstBadLine(lines: seq<string>): (k: nat)
    ensures k <= |lines|
    ensures forall j :: 0 <= j < k ==> ')' in lines[j]
    ensures k < |lines| ==> ')' !in lines[k]
    decreases |lines|
  {
    if |lines| == 0 then 0
    else if ')' !in lines[0] then 0
    else 1 + FirstBadLine(lines[1..])
  }

  /** The first loop of `calc` from graph `g`: every line is split, and the
      first line without `)` ends it with that line's error. */
  function BuildFrom(g: Graph, lines: seq<string>): (r: Result<Graph>)
    requires WellFormed(g)
    ensures r.Ok? <==> forall i :: 0 <= i < |lines| ==> ')' in lines[i]
    ensures r.Ok? ==> WellFormed(r.value)
    ensures r.Err? ==> FirstBadLine(lines) < |lines| && r.error == NoParenMessage(lines[FirstBadLine(lines)])
    decreases |lines|
  {
    if |lines| == 0 then Ok(g)
    else
      match GetPairs(lines[0])
      case Err(e) => Err(e)
      case Ok((inner, outer)) =>
        var r := BuildFrom(AddOrbit(g, inner, outer), lines[1..]);
        assert forall i :: 1 <= i < |lines| ==> lines[i] == lines[1..][i - 1];
        assert r.Err? ==> lines[FirstBadLine(lines)] == lines[1..][FirstBadLine(lines[1..])];
        r
  }

  function Build(lines: seq<string>): Result<Graph> {
    BuildFrom(Empty, lines)
  }

  /** Once a pair is in the graph, adding it again changes nothing. */
  lemma AddOrbitIdempotent(g: Graph, inner: string, outer: string)
    requires WellFormed(g)
    ensures AddOrbit(AddOrbit(g, inner, outer), inner, outer) == AddOrbit(g, inner, outer)
  {
    var g1 := AddOrbit(g, inner, outer);
    assert g1.orbiters + {outer} == g1.orbiters;
    assert g1.children[inner := g1.children[inner]] == g1.children;
  }

  /** Adding two pairs commutes when the second pair is the same as the
      first, so a repeated line anywhere later leaves the graph unchanged. */
  lemma {:induction false} BuildFromRepeat(g: Graph, inner: string, outer: string, rest: seq<string>)
    requires WellFormed(g)
    requires inner in g.children && outer in g.children[inner] && outer in g.orbiters
    ensures var line := inner + ")" + outer;
      ')' !in inner ==> BuildFrom(g, [line] + rest) == BuildFrom(g, rest)
  {
    var line := inner + ")" + outer;
    if ')' !in inner {
      GetPairsUnique(line, inner, outer);
      var g1 := AddOrbit(g, inner, outer);
      assert g1.orbiters == g.orbiters;
      assert g1.keys == g.keys;
      assert g1.children == g.children;
      assert ([line] + rest)[1..] == rest;
    }
  }

  /** Duplicate lines are counted once: repeating a line already read
      leaves the graph as it was. */
  lemma DuplicateLineIgnored(lines: seq<string>, inner: string, outer: string)
    requires ')' !in inner
    requires Build(lines + [inner + ")" + outer]).Ok?
    ensures Build(lines + [inner + ")" + outer] + [inner + ")" + outer]) == Build(lines + [inner + ")" + outer])
  {
    var line := inner + ")" + outer;
    GetPairsUnique(line, inner, outer);
    assert ')' in line;
    assert forall i :: 0 <= i < |lines| ==> lines[i] == (lines + [line])[i];
    BuildAppend(Empty, lines, line);
    var g := BuildFrom(Empty, lines).value;
    var g1 := AddOrbit(g, inner, outer);
    assert Build(lines + [line]) == Ok(g1);
    BuildAppend(Empty, lines + [line], line);
    assert Build(lines + [line] + [line]) == Ok(AddOrbit(g1, inner, outer));
    AddOrbitIdempotent(g, inner, outer);
  }

  /** Appending one parseable line to the input adds its pair last. */
  lemma {:induction false} BuildAppend(g: Graph, lines: seq<string>, line: string)
    requires WellFormed(g)
    requires ')' in line && BuildFrom(g, lines).Ok?
    ensures var p := GetPairs(line).value;
      BuildFrom(g, lines + [line]) == Ok(AddOrbit(BuildFrom(g, lines).value, p.0, p.1))
    decreases |lines|
  {
    if |lines| == 0 {
      assert lines + [line] == [line];
      assert [line][1..] == [];
    } else {
      var p := GetPairs(lines[0]).value;
      assert (lines + [line])[0] == lines[0];
      assert (lines + [line])[1..] == lines[1..] + [line];
      BuildAppend(AddOrbit(g, p.0, p.1), lines[1..], line);
    }
  }

  /** The objects that orbit nothing, in key order. */
  function RootsOf(keys: seq<string>, orbiters: set<string>): (rs: seq<string>)
    ensures forall x :: x in rs <==> x in keys && x !in orbiters
    decreases |keys|
  {
    if |keys| == 0 then []
    else (if keys[0] in orbiters then [] else [keys[0]]) + RootsOf(keys[1..], orbiters)
  }

  function Roots(g: Graph): seq<string> {
    RootsOf(g.keys, g.orbiters)
  }

  /** No cycle below the ranked objects: an object with orbiters that has a
      rank passes a strictly smaller rank on to each of its orbiters that has
      orbiters in turn. Objects outside the rank, such as a cycle that no
      root reaches, are left unconstrained. */
  ghost predicate Ranked(ch: Children, rank: map<string, nat>) {
    forall k, i :: k in ch && k in rank && 0 <= i < |ch[k]| && ch[k][i] in ch ==>
      ch[k][i] in rank && rank[ch[k][i]] < rank[k]
  }

  /** Every object of `xs` that has orbiters has a rank. */
  ghost predicate Covers(ch: Children, rank: map<string, nat>, xs: seq<string>) {
    forall i :: 0 <= i < |xs| && xs[i] in ch ==> xs[i] in rank
  }

  /** Every work-list entry whose object has orbiters names a ranked object. */
  ghost predicate Tracked(ch: Children, rank: map<string, nat>, ps: seq<ToProc>) {
    forall i :: 0 <= i < |ps| && ps[i].star in ch ==> ps[i].star in rank
  }

  /** Whether the sum descends from `s`: it has orbiters and a rank. */
  ghost predicate Inner(ch: Children, rank: map<string, nat>, s: string) {
    s in ch && s in rank
  }

  ghost function Measure(ch: Children, rank: map<string, nat>, s: string): nat
    requires Ranked(ch, rank)
  {
    if Inner(ch, rank, s) then rank[s] + 1 else 0
  }

  ghost predicate Below(ch: Children, rank: map<string, nat>, xs: seq<string>, bound: nat)
    requires Ranked(ch, rank)
  {
    forall i :: 0 <= i < |xs| && Inner(ch, rank, xs[i]) ==> rank[xs[i]] < bound
  }

  /** One entry of the work list: an object and its depth. */
  datatype ToProc = ToProc(star: string, depth: nat)

  /** Every object strictly below `s` (any number of orbits out), paired
      with its depth when `s` is at depth `d`, in depth-first order. */
  ghost function Descendants(ch: Children, rank: map<string, nat>, s: string, d: nat): seq<ToProc>
    requires Ranked(ch, rank)
    decreases Measure(ch, rank, s), 1
  {
    if Inner(ch, rank, s) then DescendantsOfAll(ch, rank, ch[s], d + 1, rank[s]) else []
  }

  ghost function DescendantsOfAll(ch: Children, rank: map<string, nat>, xs: seq<string>, d: nat, bound: nat): seq<ToProc>
    requires Ranked(ch, rank) && Below(ch, rank, xs, bound)
    decreases bound, 2, |xs|
  {
    if |xs| == 0 then []
    else [ToProc(xs[0], d)] + Descendants(ch, rank, xs[0], d) + DescendantsOfAll(ch, rank, xs[1..], d, bound)
  }

  ghost function DepthSum(ps: seq<ToProc>): nat {
    if |ps| == 0 then 0 else ps[0].depth + DepthSum(ps[1..])
  }

  /** The puzzle's answer: over every root, the depths of everything below it. */
  ghost function TotalOrbits(g: Graph, rank: map<string, nat>): nat
    requires Ranked(g.children, rank) && Covers(g.children, rank, Roots(g))
  {
    DepthSum(AllBelow(g.children, rank, Roots(g)))
  }

  ghost function AllBelow(ch: Children, rank: map<string, nat>, roots: seq<string>): seq<ToProc>
    requires Ranked(ch, rank) && Covers(ch, rank, roots)
  {
    if |roots| == 0 then [] else Descendants(ch, rank, roots[0], 0) + AllBelow(ch, rank, roots[1..])
  }

  /** What one work-list entry contributes in `calc`: at each object with
      orbiters, the number of orbiters times their depth, then the same for
      each of them. */
  ghost function Weight(ch: Children, rank: map<string, nat>, s: string, d: nat): nat
    requires Ranked(ch, rank)
    decreases Measure(ch, rank, s), 1
  {
    if Inner(ch, rank, s) then |ch[s]| * (d + 1) + WeightOfAll(ch, rank, ch[s], d + 1, rank[s]) else 0
  }

  ghost function WeightOfAll(ch: Children, rank: map<string, nat>, xs: seq<string>, d: nat, bound: nat): nat
    requires Ranked(ch, rank) && Below(ch, rank, xs, bound)
    decreases bound, 2, |xs|
  {
    if |xs| == 0 then 0 else Weight(ch, rank, xs[0], d) + WeightOfAll(ch, rank, xs[1..], d, bound)
  }

  /** Number of work-list entries an object gives rise to, itself included. */
  ghost function Size(ch: Children, rank: map<string, nat>, s: string): nat
    requires Ranked(ch, rank)
    decreases Measure(ch, rank, s), 1
  {
    if Inner(ch, rank, s) then 1 + SizeOfAll(ch, rank, ch[s], rank[s]) else 1
  }

  ghost function SizeOfAll(ch: Children, rank: map<string, nat>, xs: seq<string>, bound: nat): nat
    requires Ranked(ch, rank) && Below(ch, rank, xs, bound)
    decreases bound, 2, |xs|
  {
    if |xs| == 0 then 0 else Size(ch, rank, xs[0]) + SizeOfAll(ch, rank, xs[1..], bound)
  }

  lemma {:induction false} DepthSumAppend(a: seq<ToProc>, b: seq<ToProc>)
    ensures DepthSum(a + b) == DepthSum(a) + DepthSum(b)
    decreases |a|
  {
    if |a| > 0 {
      assert (a + b)[1..] == a[1..] + b;
      DepthSumAppend(a[1..], b);
    } else {
      assert a + b == b;
    }
  }

  /** What `calc` adds up equals the sum of depths of the objects below:
      each orbiter at depth `d + 1` is counted once by its own entry. */
  lemma {:induction false} WeightIsDepthSum(ch: Children, rank: map<string, nat>, s: string, d: nat)
    requires Ranked(ch, rank)
    ensures Weight(ch, rank, s, d) == DepthSum(Descendants(ch, rank, s, d))
    decreases Measure(ch, rank, s), 1
  {
    if Inner(ch, rank, s) {
      WeightOfAllIsDepthSum(ch, rank, ch[s], d + 1, rank[s]);
    }
  }

  lemma {:induction false} WeightOfAllIsDepthSum(ch: Children, rank: map<string, nat>, xs: seq<string>, d: nat, bound: nat)
    requires Ranked(ch, rank) && Below(ch, rank, xs, bound)
    ensures WeightOfAll(ch, rank, xs, d, bound) + |xs| * d == DepthSum(DescendantsOfAll(ch, rank, xs, d, bound))
    decreases bound, 2, |xs|
  {
    if |xs| > 0 {
      var rest := xs[1..];
      var below := Descendants(ch, rank, xs[0], d);
      var others := DescendantsOfAll(ch, rank, rest, d, bound);
      WeightIsDepthSum(ch, rank, xs[0], d);
      WeightOfAllIsDepthSum(ch, rank, rest, d, bound);
      assert WeightOfAll(ch, rank, xs, d, bound) == Weight(ch, rank, xs[0], d) + WeightOfAll(ch, rank, rest, d, bound);
      assert DescendantsOfAll(ch, rank, xs, d, bound) == [ToProc(xs[0], d)] + below + others;
      DepthSumAppend([ToProc(xs[0], d)] + below, others);
      DepthSumAppend([ToProc(xs[0], d)], below);
      assert DepthSum([ToProc(xs[0], d)]) == d;
      MulSucc(|rest|, d);
    }
  }

  lemma MulSucc(n: nat, d: nat)
    ensures (n + 1) * d == d + n * d
  {
  }

  /** The work list as a sequence of entries; `Vec::pop` takes the last. */
  function Push(xs: seq<string>, depth: nat): (ps: seq<ToProc>)
    ensures |ps| == |xs|
    ensures forall i :: 0 <= i < |xs| ==> ps[i] == ToProc(xs[i], depth)
  {
    seq(|xs|, i requires 0 <= i < |xs| => ToProc(xs[i], depth))
  }

  /** What the remaining work-list entries still add to the sum. */
  ghost function Pending(ch: Children, rank: map<string, nat>, ps: seq<ToProc>): nat
    requires Ranked(ch, rank)
  {
    if |ps| == 0 then 0 else Weight(ch, rank, ps[0].star, ps[0].depth) + Pending(ch, rank, ps[1..])
  }

  /** How many entries the work list will still pop. */
  ghost function Work(ch: Children, rank: map<string, nat>, ps: seq<ToProc>): nat
    requires Ranked(ch, rank)
  {
    if |ps| == 0 then 0 else Size(ch, rank, ps[0].star) + Work(ch, rank, ps[1..])
  }

  lemma {:induction false} PendingAppend(ch: Children, rank: map<string, nat>, a: seq<ToProc>, b: seq<ToProc>)
    requires Ranked(ch, rank)
    ensures Pending(ch, rank, a + b) == Pending(ch, rank, a) + Pending(ch, rank, b)
    ensures Work(ch, rank, a + b) == Work(ch, rank, a) + Work(ch, rank, b)
    decreases |a|
  {
    if |a| > 0 {
      assert (a + b)[1..] == a[1..] + b;
      PendingAppend(ch, rank, a[1..], b);
    } else {
      assert a + b == b;
    }
  }

  /** Pushing the orbiters of one object: their entries add what the
      object's entry still owed and cost one entry less in total. */
  lemma {:induction false} PushPending(ch: Children, rank: map<string, nat>, xs: seq<string>, d: nat, bound: nat)
    requires Ranked(ch, rank) && Below(ch, rank, xs, bound)
    ensures Pending(ch, rank, Push(xs, d)) == WeightOfAll(ch, rank, xs, d, bound)
    ensures Work(ch, rank, Push(xs, d)) == SizeOfAll(ch, rank, xs, bound)
    decreases |xs|
  {
    if |xs| > 0 {
      assert Push(xs, d)[1..] == Push(xs[1..], d);
      PushPending(ch, rank, xs[1..], d, bound);
    }
  }

  /** The roots at depth 0 owe exactly the puzzle's answer. */
  lemma {:induction false} RootsPending(ch: Children, rank: map<string, nat>, roots: seq<string>)
    requires Ranked(ch, rank) && Covers(ch, rank, roots)
    ensures Pending(ch, rank, Push(roots, 0)) == DepthSum(AllBelow(ch, rank, roots))
    decreases |roots|
  {
    if |roots| > 0 {
      assert Push(roots, 0)[1..] == Push(roots[1..], 0);
      RootsPending(ch, rank, roots[1..]);
      WeightIsDepthSum(ch, rank, roots[0], 0);
      DepthSumAppend(Descendants(ch, rank, roots[0], 0), AllBelow(ch, rank, roots[1..]));
    }
  }

  /** One turn of the work loop: popping the last entry and pushing the
      orbiters of its object keeps `sum + Pending` fixed and shrinks `Work`. */
  lemma PopStep(ch: Children, rank: map<string, nat>, procs: seq<ToProc>) returns (rest: seq<ToProc>, tp: ToProc)
    requires Ranked(ch, rank) && Tracked(ch, rank, procs) && |procs| > 0
    ensures rest == procs[..|procs| - 1] && tp == procs[|procs| - 1]
    ensures tp.star !in ch ==>
      && Tracked(ch, rank, rest)
      && Pending(ch, rank, procs) == Pending(ch, rank, rest)
      && Work(ch, rank, rest) < Work(ch, rank, procs)
    ensures tp.star in ch ==>
      var next := rest + Push(ch[tp.star], tp.depth + 1);
      && Tracked(ch, rank, next)
      && Pending(ch, rank, procs) == |ch[tp.star]| * (tp.depth + 1) + Pending(ch, rank, next)
      && Work(ch, rank, next) < Work(ch, rank, procs)
  {
    rest, tp := procs[..|procs| - 1], procs[|procs| - 1];
    assert procs == rest + [tp];
    assert Tracked(ch, rank, rest);
    PendingAppend(ch, rank, rest, [tp]);
    assert [tp][1..] == [];
    if tp.star in ch {
      assert Inner(ch, rank, tp.star);
      var parents := ch[tp.star];
      var pushed := Push(parents, tp.depth + 1);
      PushPending(ch, rank, parents, tp.depth + 1, rank[tp.star]);
      PendingAppend(ch, rank, rest, pushed);
      assert Tracked(ch, rank, pushed);
      TrackedAppend(ch, rank, rest, pushed);
    }
  }

  lemma TrackedAppend(ch: Children, rank: map<string, nat>, a: seq<ToProc>, b: seq<ToProc>)
    requires Tracked(ch, rank, a) && Tracked(ch, rank, b)
    ensures Tracked(ch, rank, a + b)
  {
  }

  /** The second loop of `calc`: start with every root at depth 0, pop an
      entry, and if its object has orbiters add their count times their
      depth and push them one level deeper. */
  method SumOrbits(g: Graph, ghost rank: map<string, nat>) returns (sum: nat)
    requires Ranked(g.children, rank) && Covers(g.children, rank, Roots(g))
    ensures sum == TotalOrbits(g, rank)
  {
    var ch := g.children;
    var procs := Push(Roots(g), 0);
    RootsPending(ch, rank, Roots(g));
    sum := 0;
    while |procs| > 0
      invariant Tracked(ch, rank, procs)
      invariant sum + Pending(ch, rank, procs) == TotalOrbits(g, rank)
      decreases Work(ch, rank, procs)
    {
      var tp := procs[|procs| - 1];
      ghost var rest, _ := PopStep(ch, rank, procs);
      procs := procs[..|procs| - 1];
      if tp.star in ch {
        var parents := ch[tp.star];
        var depth := tp.depth + 1;
        sum := sum + |parents| * depth;
        procs := procs + Push(parents, depth);
      }
    }
  }

  /** `calc`: build the map, then run the work list from the roots. An
      input line without `)` is the error of the first such line. The sum is
      the total number of direct and indirect orbits below the roots. */
  method Calc(lines: seq<string>, ghost rank: map<string, nat>) returns (r: Result<nat>)
    requires Build(lines).Ok? ==>
      Ranked(Build(lines).value.children, rank) && Covers(Build(lines).value.children, rank, Roots(Build(lines).value))
    ensures r.Ok? <==> forall i :: 0 <= i < |lines| ==> ')' in lines[i]
    ensures r.Err? ==> r.error == Build(lines).error
    ensures r.Err? ==> FirstBadLine(lines) < |lines| && r.error == NoParenMessage(lines[FirstBadLine(lines)])
    ensures r.Ok? ==> r.value == TotalOrbits(Build(lines).value, rank)
  {
    var built := Build(lines);
    if built.Err? {
      return Err(built.error);
    }
    var sum := SumOrbits(built.value, rank);
    r := Ok(sum);
  }

  /** A map in which every object with orbiters orbits something in turn,
      such as a cycle, has no root: the empty rank meets the requirement of
      `Calc`, and the sum is 0, since the work list starts empty. */
  lemma NoRootNoSum(g: Graph)
    requires forall i :: 0 <= i < |g.keys| ==> g.keys[i] in g.orbiters
    ensures Roots(g) == []
    ensures Ranked(g.children, map[]) && Covers(g.children, map[], Roots(g))
    ensures TotalOrbits(g, map[]) == 0
  {
    OrbitingKeysAreNoRoots(g.keys, g.orbiters);
  }

  /** The lines `A)B` and `B)A`, one orbit each. */
  lemma CycleBuild()
    ensures Build(["A)B", "B)A"]) == Ok(AddOrbit(AddOrbit(Empty, "A", "B"), "B", "A"))
  {
    GetPairsUnique("A)B", "A", "B");
    GetPairsUnique("B)A", "B", "A");
    assert [] + ["A)B"] == ["A)B"] && ["A)B"] + ["B)A"] == ["A)B", "B)A"];
    BuildAppend(Empty, [], "A)B");
    BuildAppend(Empty, ["A)B"], "B)A");
  }

  /** An object that is not yet a key becomes the last key. */
  lemma AddNewKey(g: Graph, inner: string, outer: string)
    requires WellFormed(g) && inner !in g.children
    ensures AddOrbit(g, inner, outer).keys == g.keys + [inner]
  {
  }

  /** Two distinct objects that orbit each other: both are keys, both are
      orbiters, and no key is a root. */
  lemma MutualOrbit(a: string, b: string)
    requires a != b
    ensures var g := AddOrbit(AddOrbit(Empty, a, b), b, a);
      forall i :: 0 <= i < |g.keys| ==> g.keys[i] in g.orbiters
  {
    var g1 := AddOrbit(Empty, a, b);
    var g2 := AddOrbit(g1, b, a);
    AddNewKey(Empty, a, b);
    assert b !in g1.children;
    AddNewKey(g1, b, a);
    PairWithin(g2.keys, g2.orbiters, a, b);
  }

  /** A sequence of two elements, both in `s`, lies within `s`. */
  lemma PairWithin(xs: seq<string>, s: set<string>, a: string, b: string)
    requires xs == [] + [a] + [b] && a in s && b in s
    ensures forall i :: 0 <= i < |xs| ==> xs[i] in s
  {
    assert xs[0] == a && |xs| == 2;
  }

  /** The lines `A)B` and `B)A` build a map whose two objects orbit each
      other, so it has no root. */
  lemma RootlessCycle()
    ensures Build(["A)B", "B)A"]).Ok?
    ensures var g := Build(["A)B", "B)A"]).value;
      forall i :: 0 <= i < |g.keys| ==> g.keys[i] in g.orbiters
  {
    CycleBuild();
    MutualOrbit("A", "B");
  }

  /** The graph the eleven lines of the day_06 example describe, from
      COM)B to K)L, with a rank that witnesses it has no cycle. */
  const SampleChildren: Children := map["COM" := ["B"], "B" := ["C", "G"], "C" := ["D"], "D" := ["E", "I"], "E" := ["F", "J"], "G" := ["H"], "J" := ["K"], "K" := ["L"]]
  const SampleGraph := Graph(SampleChildren, ["COM", "B", "C", "D", "E", "G", "J", "K"], {"B", "C", "D", "E", "F", "G", "H", "I", "J", "K", "L"})
  const SampleRank: map<string, nat> := map["COM" := 6, "B" := 5, "C" := 4, "D" := 3, "E" := 2, "G" := 0, "J" := 1, "K" := 0]

  lemma SampleRanked()
    ensures Ranked(SampleChildren, SampleRank)
  {
  }

  lemma SampleRoots()
    ensures Roots(SampleGraph) == ["COM"]
  {
    var keys := SampleGraph.keys;
    var orbiters := SampleGraph.orbiters;
    assert "COM" !in orbiters;
    assert forall i :: 1 <= i < |keys| ==> keys[i] in orbiters;
    OrbitingKeysAreNoRoots(keys[1..], orbiters);
    assert RootsOf(keys, orbiters) == ["COM"] + RootsOf(keys[1..], orbiters);
  }

  lemma {:induction false} OrbitingKeysAreNoRoots(keys: seq<string>, orbiters: set<string>)
    requires forall i :: 0 <= i < |keys| ==> keys[i] in orbiters
    ensures RootsOf(keys, orbiters) == []
    decreases |keys|
  {
    if |keys| > 0 {
      OrbitingKeysAreNoRoots(keys[1..], orbiters);
    }
  }

  /** How `Weight` unfolds at an object without orbiters, with one, and with two. */
  lemma WeightUnfold(ch: Children, rank: map<string, nat>, s: string, d: nat)
    requires Ranked(ch, rank)
    ensures s !in ch ==> Weight(ch, rank, s, d) == 0
    ensures Inner(ch, rank, s) && |ch[s]| == 1 ==>
      Weight(ch, rank, s, d) == (d + 1) + Weight(ch, rank, ch[s][0], d + 1)
    ensures Inner(ch, rank, s) && |ch[s]| == 2 ==>
      Weight(ch, rank, s, d) == 2 * (d + 1) + Weight(ch, rank, ch[s][0], d + 1) + Weight(ch, rank, ch[s][1], d + 1)
  {
    if Inner(ch, rank, s) && (|ch[s]| == 1 || |ch[s]| == 2) {
      var xs, b := ch[s], rank[s];
      var ys := xs[1..];
      assert Below(ch, rank, ys, b);
      assert WeightOfAll(ch, rank, xs, d + 1, b) == Weight(ch, rank, xs[0], d + 1) + WeightOfAll(ch, rank, ys, d + 1, b);
      if |xs| == 2 {
        assert ys[0] == xs[1] && ys[1..] == [];
        assert WeightOfAll(ch, rank, ys, d + 1, b) == Weight(ch, rank, xs[1], d + 1) + WeightOfAll(ch, rank, ys[1..], d + 1, b);
      } else {
        assert ys == [];
      }
    }
  }

  /** The entries of the example map that the sum visits. */
  lemma SampleShape()
    ensures SampleChildren["COM"] == ["B"] && SampleChildren["B"] == ["C", "G"]
    ensures SampleChildren["C"] == ["D"] && SampleChildren["D"] == ["E", "I"]
    ensures SampleChildren["E"] == ["F", "J"] && SampleChildren["G"] == ["H"]
    ensures SampleChildren["J"] == ["K"] && SampleChildren["K"] == ["L"]
    ensures "F" !in SampleChildren && "H" !in SampleChildren
    ensures "I" !in SampleChildren && "L" !in SampleChildren
  {
  }

  /** Every object of the example map with orbiters has a rank. */
  lemma SampleInner()
    ensures Inner(SampleChildren, SampleRank, "COM") && Inner(SampleChildren, SampleRank, "B")
    ensures Inner(SampleChildren, SampleRank, "C") && Inner(SampleChildren, SampleRank, "D")
    ensures Inner(SampleChildren, SampleRank, "E") && Inner(SampleChildren, SampleRank, "G")
    ensures Inner(SampleChildren, SampleRank, "J") && Inner(SampleChildren, SampleRank, "K")
  {
  }

  /** The chain below J, with J at depth 5: K and L. */
  lemma WeightJ()
    ensures Ranked(SampleChildren, SampleRank)
    ensures Weight(SampleChildren, SampleRank, "J", 5) == 13
  {
    SampleRanked();
    SampleShape();
    SampleInner();
    var ch, rank := SampleChildren, SampleRank;
    WeightUnfold(ch, rank, "L", 7);
    WeightUnfold(ch, rank, "K", 6);
    WeightUnfold(ch, rank, "J", 5);
  }

  /** The part of the example below D, with D at depth 3: E, I, F, J, K, L. */
  lemma WeightD()
    ensures Ranked(SampleChildren, SampleRank)
    ensures Weight(SampleChildren, SampleRank, "D", 3) == 31
  {
    WeightJ();
    SampleShape();
    SampleInner();
    var ch, rank := SampleChildren, SampleRank;
    WeightUnfold(ch, rank, "F", 5);
    WeightUnfold(ch, rank, "E", 4);
    WeightUnfold(ch, rank, "I", 4);
    WeightUnfold(ch, rank, "D", 3);
  }

  lemma WeightCOM()
    ensures Ranked(SampleChildren, SampleRank)
    ensures Weight(SampleChildren, SampleRank, "COM", 0) == 42
  {
    WeightD();
    SampleShape();
    SampleInner();
    var ch, rank := SampleChildren, SampleRank;
    WeightUnfold(ch, rank, "C", 2);
    WeightUnfold(ch, rank, "H", 3);
    WeightUnfold(ch, rank, "G", 2);
    WeightUnfold(ch, rank, "B", 1);
    WeightUnfold(ch, rank, "COM", 0);
  }

  /** The example map has 42 direct and indirect orbits. */
  lemma SampleTotal()
    ensures Ranked(SampleChildren, SampleRank) && Covers(SampleChildren, SampleRank, Roots(SampleGraph))
    ensures TotalOrbits(SampleGraph, SampleRank) == 42
  {
    WeightCOM();
    SampleRoots();
    WeightIsDepthSum(SampleChildren, SampleRank, "COM", 0);
    assert AllBelow(SampleChildren, SampleRank, ["COM"]) == Descendants(SampleChildren, SampleRank, "COM", 0) + [];
    assert Descendants(SampleChildren, SampleRank, "COM", 0) + [] == Descendants(SampleChildren, SampleRank, "COM", 0);
  }
}

=== FILE: ports.dfy ===
/** The pure backings of the computer's input and output ports
    (intcode/src/input.rs, intcode/src/output.rs). A port is a value here:
    reading or writing returns the port's next state. */
module Ports {
  import opened Wrappers
  import opened IntcodeBase
  import opened Decimal

  const QueueExhausted: string := "Ran out of elements in the input vector"

  /** `VecDeque<Bit>` (a FIFO queue) and `Single` (one value, then failure). */
  datatype InPort = Queue(items: seq<int>) | Single(value: int, used: bool)

  /** `Vec<Bit>`, the shared `Rc<RefCell<Vec<Bit>>>`, and the `String` accumulator. */
  datatype OutPort = Collect(items: seq<int>) | Shared(items: seq<int>) | Text(text: string)

  /** `Single::new`: a single-shot input that has not been read yet. */
  function NewSingle(b: int): (p: InPort)
    ensures GetIn(p) == Ok((b, Single(b, true)))
  {
    Single(b, false)
  }

  /** `Input::get_in`: the next value and the port after reading it. */
  function GetIn(p: InPort): (r: Result<(int, InPort)>)
    ensures p.Queue? ==> (r.Ok? <==> |p.items| > 0)
    ensures p.Queue? && r.Ok? ==> r.value.0 == p.items[0] && r.value.1 == Queue(p.items[1..])
    ensures p.Queue? && r.Err? ==> r.error == InputErrStr(QueueExhausted)
    ensures p.Single? ==> (r.Ok? <==> !p.used)
    ensures p.Single? && r.Ok? ==> r.value == (p.value, Single(p.value, true))
    ensures p.Single? && r.Err? ==> r.error == InputErrStr("")
  {
    match p
    case Queue(items) =>
      if |items| == 0 then Err(InputErrStr(QueueExhausted))
      else Ok((items[0], Queue(items[1..])))
    case Single(b, used) =>
      if used then Err(InputErrStr(""))
      else Ok((b, Single(b, true)))
  }

  /** `n` consecutive reads: the values in the order read, and the port after. */
  function ReadN(p: InPort, n: nat): Result<(seq<int>, InPort)>
    decreases n
  {
    if n == 0 then Ok(([], p))
    else
      match GetIn(p)
      case Err(e) => Err(e)
      case Ok((v, p')) =>
        match ReadN(p', n - 1)
        case Err(e) => Err(e)
        case Ok((vs, p'')) => Ok(([v] + vs, p''))
  }

  /** A queue hands out its elements front to back, then it is empty. */
  lemma {:induction false} QueueYieldsInOrder(xs: seq<int>)
    ensures ReadN(Queue(xs), |xs|) == Ok((xs, Queue([])))
    decreases |xs|
  {
    if |xs| > 0 {
      QueueYieldsInOrder(xs[1..]);
      assert [xs[0]] + xs[1..] == xs;
    }
  }

  /** Reading one more value than a queue holds fails with the exhaustion error. */
  lemma {:induction false} QueueOverflowFails(xs: seq<int>)
    ensures ReadN(Queue(xs), |xs| + 1) == Err(InputErrStr(QueueExhausted))
    decreases |xs|
  {
    if |xs| > 0 {
      QueueOverflowFails(xs[1..]);
    }
  }

  /** The unit test of input.rs: a queue of 1, 2, 3 yields 1, then 2, then 3. */
  lemma QueueTestVector()
    ensures ReadN(Queue([1, 2, 3]), 3) == Ok(([1, 2, 3], Queue([])))
    ensures ReadN(Queue([1, 2, 3]), 4).Err?
  {
    QueueYieldsInOrder([1, 2, 3]);
    QueueOverflowFails([1, 2, 3]);
  }

  /** A single-shot input yields its value once and fails on every later read. */
  lemma SingleYieldsOnce(b: int, n: nat)
    ensures ReadN(NewSingle(b), 1) == Ok(([b], Single(b, true)))
    ensures n > 0 ==> ReadN(Single(b, true), n).Err?
  {
    assert ReadN(Single(b, true), 0) == Ok(([], Single(b, true)));
    assert [b] + [] == [b];
  }

  /** Text appended by `String::put_out` for value `n` given the current text. */
  function TextPiece(current: string, n: int): string {
    (if |current| == 0 then "" else ", ") + IntToString(n)
  }

  /** `Output::put_out`. Writing to a `String` through `fmt::Write` cannot
      fail, so every backing here succeeds. */
  function PutOut(o: OutPort, n: int): (o': OutPort)
    ensures o'.Collect? == o.Collect? && o'.Shared? == o.Shared? && o'.Text? == o.Text?
    ensures !o.Text? ==> o'.items == o.items + [n]
    ensures o.Text? ==> o.text <= o'.text
    ensures o.Text? && |o.text| == 0 ==> o'.text == IntToString(n)
    ensures o.Text? && |o.text| > 0 ==> |o'.text| > |o.text| + 2 && o'.text[|o.text|..|o.text| + 2] == ", "
    ensures o.Text? && |o.text| > 0 ==> o'.text == o.text + ", " + IntToString(n)
  {
    match o
    case Collect(items) => Collect(items + [n])
    case Shared(items) => Shared(items + [n])
    case Text(s) => Text(s + TextPiece(s, n))
  }

  /** Putting every value of `xs` in turn. */
  function PutAll(o: OutPort, xs: seq<int>): OutPort
    decreases |xs|
  {
    if |xs| == 0 then o else PutAll(PutOut(o, xs[0]), xs[1..])
  }

  /** A collector, shared or not, ends up holding exactly what was put, in order. */
  lemma {:induction false} CollectAppends(prefix: seq<int>, xs: seq<int>, shared: bool)
    ensures PutAll(if shared then Shared(prefix) else Collect(prefix), xs)
         == (if shared then Shared(prefix + xs) else Collect(prefix + xs))
    decreases |xs|
  {
    if |xs| > 0 {
      CollectAppends(prefix + [xs[0]], xs[1..], shared);
      assert (prefix + [xs[0]]) + xs[1..] == prefix + xs;
    }
  }

  /** The values rendered in decimal and joined by ", ". */
  function Joined(xs: seq<int>): string
    decreases |xs|
  {
    if |xs| == 0 then ""
    else if |xs| == 1 then IntToString(xs[0])
    else Joined(xs[..|xs| - 1]) + ", " + IntToString(xs[|xs| - 1])
  }

  lemma JoinedNonEmpty(xs: seq<int>)
    requires |xs| > 0
    ensures |Joined(xs)| > 0
  {
  }

  /** From an empty string, the accumulator holds the values joined by ", ". */
  lemma {:induction false} TextJoins(xs: seq<int>)
    ensures PutAll(Text(""), xs) == Text(Joined(xs))
  {
    TextJoinsFrom([], xs);
    assert [] + xs == xs;
  }

  lemma {:induction false} TextJoinsFrom(done: seq<int>, rest: seq<int>)
    ensures PutAll(Text(Joined(done)), rest) == Text(Joined(done + rest))
    decreases |rest|
  {
    if |rest| > 0 {
      TextPutStep(done, rest[0]);
      TextJoinsFrom(done + [rest[0]], rest[1..]);
      assert (done + [rest[0]]) + rest[1..] == done + rest;
    } else {
      assert done + rest == done;
    }
  }

  /** One put extends the joined text by one more element. */
  lemma TextPutStep(done: seq<int>, x: int)
    ensures PutOut(Text(Joined(done)), x) == Text(Joined(done + [x]))
  {
    var d := done + [x];
    assert d[..|d| - 1] == done;
    if |done| > 0 {
      JoinedNonEmpty(done);
    }
  }

  /** The unit test of output.rs: putting 1, 2, 10, 3 yields "1, 2, 10, 3". */
  lemma TextTestVector()
    ensures PutAll(Text(""), [1, 2, 10, 3]) == Text("1, 2, 10, 3")
  {
    TextJoins([1, 2, 10, 3]);
    JoinedTestVector();
  }

  /** 1, 2, 10 and 3 joined by ", ". */
  lemma JoinedTestVector()
    ensures Joined([1, 2, 10, 3]) == "1, 2, 10, 3"
  {
    assert IntToString(1) == "1" && IntToString(2) == "2" && IntToString(3) == "3";
    assert IntToString(10) == "10";
    var xs := [1, 2, 10, 3];
    assert xs[..3] == [1, 2, 10] && xs[..3][..2] == [1, 2] && xs[..3][..2][..1] == [1];
    assert Joined([1, 2]) == "1, 2";
    assert Joined([1, 2, 10]) == "1, 2, 10";
  }

  /** The unit test of output.rs for `Vec`: indices 0, 1, 2 hold 1, 2, 3. */
  lemma CollectTestVector()
    ensures PutAll(Collect([]), [1, 2, 3]).items == [1, 2, 3]
  {
    CollectAppends([], [1, 2, 3], false);
  }
}

=== FILE: rocket_fuel.dfy ===
/** Fuel for a module of a given mass, counting the fuel the fuel itself
    needs (day_01/src/main.rs). Masses are `u64` in the source; here they
    are unbounded naturals. */
module RocketFuel {

  import opened Wrappers

  /** `fuel`: a third of the mass rounded down, minus two, or nothing when
      that would go below zero (`checked_sub`). */
  function Fuel(mass: nat): (r: Option<nat>)
    ensures r.Some? <==> mass >= 6
    ensures r.Some? ==> 3 * (r.value + 2) <= mass < 3 * (r.value + 3)
    ensures r.Some? ==> r.value < mass
  {
    if mass / 3 >= 2 then Some(mass / 3 - 2) else None
  }

  /** `calc_fuel`: the mass itself plus, while the fuel for it is positive,
      the fuel for that fuel, and so on. */
  function CalcFuel(mass: nat): (r: nat)
    ensures r >= mass
    ensures Fuel(mass).None? || Fuel(mass).value == 0 ==> r == mass
    ensures 2 * r <= 3 * mass
    decreases mass
  {
    match Fuel(mass)
    case Some(n) => if n > 0 then mass + CalcFuel(n) else mass
    case None => mass
  }

  /** `total_fuel`: the fuel a module needs, including the fuel for its fuel. */
  function TotalFuel(mass: nat): (r: nat)
    ensures mass / 3 < 2 ==> r == 0
    ensures mass / 3 >= 2 ==> mass / 3 - 2 <= r
    ensures 2 * r <= mass
  {
    match Fuel(mass)
    case Some(n) => CalcFuel(n)
    case None => 0
  }

  /** The positive fuel amounts the module needs, one per round: the fuel
      for the mass, then the fuel for that fuel, while it stays positive. */
  function FuelRounds(mass: nat): seq<nat>
    decreases mass
  {
    match Fuel(mass)
    case Some(n) => if n > 0 then [n] + FuelRounds(n) else []
    case None => []
  }

  function Sum(xs: seq<nat>): nat {
    if |xs| == 0 then 0 else xs[0] + Sum(xs[1..])
  }

  /** The total is the sum of the per-round fuel amounts. */
  lemma {:induction false} TotalFuelIsSumOfRounds(mass: nat)
    ensures TotalFuel(mass) == Sum(FuelRounds(mass))
    decreases mass
  {
    match Fuel(mass)
    case None =>
    case Some(n) =>
      CalcFuelIsMassPlusRounds(n);
      if n == 0 {
        assert Fuel(n).None?;
      }
  }

  lemma {:induction false} CalcFuelIsMassPlusRounds(mass: nat)
    ensures CalcFuel(mass) == mass + Sum(FuelRounds(mass))
    decreases mass
  {
    match Fuel(mass)
    case None =>
    case Some(n) =>
      if n > 0 {
        CalcFuelIsMassPlusRounds(n);
        assert FuelRounds(mass)[1..] == FuelRounds(n);
      }
  }

  /** The unit tests of day_01. */
  lemma TotalFuelExamples()
    ensures TotalFuel(14) == 2
    ensures TotalFuel(1969) == 966
    ensures TotalFuel(100756) == 50346
  {
    assert CalcFuel(2) == 2;
    assert TotalFuel(14) == 2;
    assert CalcFuel(5) == 5;
    assert CalcFuel(21) == 26;
    assert CalcFuel(70) == 96;
    assert CalcFuel(216) == 312;
    assert CalcFuel(654) == 966;
    assert TotalFuel(1969) == 966;
    assert CalcFuel(12) == 14;
    assert CalcFuel(43) == 57;
    assert CalcFuel(135) == 192;
    assert CalcFuel(411) == 603;
    assert CalcFuel(1240) == 1843;
    assert CalcFuel(3728) == 5571;
    assert CalcFuel(11192) == 16763;
    assert CalcFuel(33583) == 50346;
  }
}

=== FILE: secure_container.dfy ===
/** Six-digit passwords (day_04/src/main.rs): parsing with the optional
    "fix" to the next non-decreasing number, the successor among
    non-decreasing numbers, the double-digit tests and the stop test. */
module SecureContainer {
  import opened Decimal

  type Digit = d: int | 0 <= d <= 9

  /** `Num`: six decimal digits, most significant first. */
  datatype Num = Num(d1: Digit, d2: Digit, d3: Digit, d4: Digit, d5: Digit, d6: Digit)

  function Digits(n: Num): seq<int> {
    [n.d1, n.d2, n.d3, n.d4, n.d5, n.d6]
  }

  function Value(n: Num): nat {
    n.d1 * 100_000 + n.d2 * 10_000 + n.d3 * 1_000 + n.d4 * 100 + n.d5 * 10 + n.d6
  }

  predicate NonDecreasing(n: Num) {
    n.d1 <= n.d2 <= n.d3 <= n.d4 <= n.d5 <= n.d6
  }

  /** The order `#[derive(Ord)]` gives `Num`: lexicographic on d1..d6. */
  predicate Less(a: Num, b: Num) {
    a.d1 < b.d1 || (a.d1 == b.d1 &&
    (a.d2 < b.d2 || (a.d2 == b.d2 &&
    (a.d3 < b.d3 || (a.d3 == b.d3 &&
    (a.d4 < b.d4 || (a.d4 == b.d4 &&
    (a.d5 < b.d5 || (a.d5 == b.d5 &&
    a.d6 < b.d6)))))))))
  }

  /** The derived order is the order of the numbers the digits spell. */
  lemma LessIsNumericOrder(a: Num, b: Num)
    ensures Less(a, b) <==> Value(a) < Value(b)
  {
  }

  /** Index of the first digit smaller than the one before it, or 6. */
  function FirstDescent(ds: seq<int>): (k: nat)
    requires |ds| == 6
    ensures 1 <= k <= 6
    ensures forall j :: 1 <= j < k ==> ds[j - 1] <= ds[j]
    ensures k < 6 ==> ds[k] < ds[k - 1]
  {
    if ds[1] < ds[0] then 1
    else if ds[2] < ds[1] then 2
    else if ds[3] < ds[2] then 3
    else if ds[4] < ds[3] then 4
    else if ds[5] < ds[4] then 5
    else 6
  }

  function Parse(s: string): (n: Num)
    requires |s| == 6 && AllDigits(s)
    ensures forall i :: 0 <= i < 6 ==> Digits(n)[i] == DigitValue(s[i])
  {
    Num(DigitValue(s[0]), DigitValue(s[1]), DigitValue(s[2]),
        DigitValue(s[3]), DigitValue(s[4]), DigitValue(s[5]))
  }

  /** `Num::from_num`. The source panics unless the text is six decimal
      digits. With `fix`, every digit from the first descent on is raised to
      the digit just before it. */
  function FromNum(s: string, fix: bool): (n: Num)
    requires |s| == 6 && AllDigits(s)
    ensures !fix ==> forall i :: 0 <= i < 6 ==> Digits(n)[i] == DigitValue(s[i])
    ensures fix ==> NonDecreasing(n)
    ensures fix ==>
      var k := FirstDescent(Digits(Parse(s)));
      (forall i :: 0 <= i < k ==> Digits(n)[i] == DigitValue(s[i])) &&
      (forall i :: k <= i < 6 ==> Digits(n)[i] == DigitValue(s[k - 1]))
  {
    var d1, d2, d3, d4, d5, d6 :=
      DigitValue(s[0]), DigitValue(s[1]), DigitValue(s[2]),
      DigitValue(s[3]), DigitValue(s[4]), DigitValue(s[5]);
    if !fix then Num(d1, d2, d3, d4, d5, d6)
    else if d2 < d1 then Num(d1, d1, d1, d1, d1, d1)
    else if d3 < d2 then Num(d1, d2, d2, d2, d2, d2)
    else if d4 < d3 then Num(d1, d2, d3, d3, d3, d3)
    else if d5 < d4 then Num(d1, d2, d3, d4, d4, d4)
    else if d6 < d5 then Num(d1, d2, d3, d4, d5, d5)
    else Num(d1, d2, d3, d4, d5, d6)
  }

  /** The fixed number is the least non-decreasing number at or above the
      digits as written. */
  lemma FixIsLeastAbove(s: string, m: Num)
    requires |s| == 6 && AllDigits(s)
    ensures !Less(FromNum(s, true), Parse(s))
    ensures NonDecreasing(m) && !Less(m, Parse(s)) ==> !Less(m, FromNum(s, true))
  {
  }

  /** `Num::up`: the next number among the non-decreasing ones. The source
      panics on 999999. */
  function Up(n: Num): (r: Num)
    requires n != Num(9, 9, 9, 9, 9, 9)
    ensures Less(n, r)
    ensures NonDecreasing(n) ==> NonDecreasing(r)
  {
    if n.d6 < 9 then n.(d6 := n.d6 + 1)
    else if n.d5 < 9 then var d := n.d5 + 1; n.(d5 := d, d6 := d)
    else if n.d4 < 9 then var d := n.d4 + 1; n.(d4 := d, d5 := d, d6 := d)
    else if n.d3 < 9 then var d := n.d3 + 1; n.(d3 := d, d4 := d, d5 := d, d6 := d)
    else if n.d2 < 9 then var d := n.d2 + 1; n.(d2 := d, d3 := d, d4 := d, d5 := d, d6 := d)
    else var d := n.d1 + 1; Num(d, d, d, d, d, d)
  }

  /** From a non-decreasing number, `up` skips no non-decreasing number:
      nothing non-decreasing lies strictly between `n` and `Up(n)`. */
  lemma UpIsNextNonDecreasing(n: Num, m: Num)
    requires n != Num(9, 9, 9, 9, 9, 9) && NonDecreasing(n)
    ensures NonDecreasing(m) && Less(n, m) ==> !Less(m, Up(n))
  {
  }

  /** `has_double`. */
  function HasDouble(n: Num): (b: bool)
    ensures b <==> exists i :: 0 <= i < 5 && Digits(n)[i] == Digits(n)[i + 1]
  {
    var ds := Digits(n);
    assert ds[0] == n.d1 && ds[1] == n.d2 && ds[2] == n.d3 && ds[3] == n.d4 && ds[4] == n.d5 && ds[5] == n.d6;
    n.d1 == n.d2 || n.d2 == n.d3 || n.d3 == n.d4 || n.d4 == n.d5 || n.d5 == n.d6
  }

  /** `ds[i..i+len]` is a maximal block of equal digits. */
  predicate IsMaximalRun(ds: seq<int>, i: int, len: int) {
    && 0 <= i && 1 <= len && i + len <= |ds|
    && (forall j :: i <= j < i + len ==> ds[j] == ds[i])
    && (i == 0 || ds[i - 1] != ds[i])
    && (i + len == |ds| || ds[i + len] != ds[i])
  }

  /** `has_only_double`: some maximal block of equal digits has length
      exactly two. */
  function HasOnlyDouble(n: Num): (b: bool)
    ensures b <==> exists i :: 0 <= i < 5 && IsMaximalRun(Digits(n), i, 2)
    ensures b ==> HasDouble(n)
  {
    var ds := Digits(n);
    assert ds[0] == n.d1 && ds[1] == n.d2 && ds[2] == n.d3 && ds[3] == n.d4 && ds[4] == n.d5 && ds[5] == n.d6;
    assert IsMaximalRun(ds, 0, 2) <==> n.d1 == n.d2 && n.d2 != n.d3;
    assert IsMaximalRun(ds, 1, 2) <==> n.d2 == n.d3 && n.d3 != n.d4 && n.d3 != n.d1;
    assert IsMaximalRun(ds, 2, 2) <==> n.d3 == n.d4 && n.d4 != n.d5 && n.d4 != n.d2;
    assert IsMaximalRun(ds, 3, 2) <==> n.d4 == n.d5 && n.d5 != n.d6 && n.d5 != n.d3;
    assert IsMaximalRun(ds, 4, 2) <==> n.d5 == n.d6 && n.d6 != n.d4;
    (n.d1 == n.d2 && n.d2 != n.d3)
    || (n.d2 == n.d3 && n.d3 != n.d4 && n.d3 != n.d1)
    || (n.d3 == n.d4 && n.d4 != n.d5 && n.d4 != n.d2)
    || (n.d4 == n.d5 && n.d5 != n.d6 && n.d5 != n.d3)
    || (n.d5 == n.d6 && n.d6 != n.d4)
  }

  /** `done`: every digit is at least the matching digit of `that`. */
  function Done(n: Num, that: Num): (b: bool)
    ensures b <==> forall i :: 0 <= i < 6 ==> Digits(n)[i] >= Digits(that)[i]
  {
    var ds, ts := Digits(n), Digits(that);
    assert ds[0] == n.d1 && ds[1] == n.d2 && ds[2] == n.d3 && ds[3] == n.d4 && ds[4] == n.d5 && ds[5] == n.d6;
    assert ts[0] == that.d1 && ts[1] == that.d2 && ts[2] == that.d3 && ts[3] == that.d4 && ts[4] == that.d5 && ts[5] == that.d6;
    n.d1 >= that.d1 && n.d2 >= that.d2 && n.d3 >= that.d3
    && n.d4 >= that.d4 && n.d5 >= that.d5 && n.d6 >= that.d6
  }

  /** `done` implies the number has reached `that` in the derived order, but
      not the other way round: 222222 is above 219999 yet not `done`. */
  lemma DoneVersusOrder(n: Num, that: Num)
    ensures Done(n, that) ==> !Less(n, that)
    ensures !Less(Num(2, 2, 2, 2, 2, 2), Num(2, 1, 9, 9, 9, 9))
    ensures !Done(Num(2, 2, 2, 2, 2, 2), Num(2, 1, 9, 9, 9, 9))
  {
  }

  /** Examples of the two double tests: 112233 and 111122 have a block of
      exactly two; 123444 has a double but only inside a block of three. */
  lemma DoubleExamples()
    ensures HasOnlyDouble(Num(1, 1, 2, 2, 3, 3))
    ensures HasDouble(Num(1, 2, 3, 4, 4, 4)) && !HasOnlyDouble(Num(1, 2, 3, 4, 4, 4))
    ensures HasOnlyDouble(Num(1, 1, 1, 1, 2, 2))
    ensures !HasDouble(Num(1, 2, 3, 7, 8, 9))
  {
  }
}

=== FILE: wrappers.dfy ===
/** Rust's `Option` and `Result`, shared by every module. */
module Wrappers {

  datatype Option<+T> = None | Some(value: T)

  /** Rust's `Result<T, E>`, usable with `:-` like `?`. Each module names
      its own `Result` after its error type. */
  datatype Outcome<+T, +E> = Ok(value: T) | Err(error: E) {
    predicate IsFailure() {
      Err?
    }

    function PropagateFailure<U>(): Outcome<U, E>
      requires Err?
    {
      Err(error)
    }

    function Extract(): T
      requires Ok?
    {
      value
    }
  }
}
